=== FILE: README.md ===
# A verified model of the thread-grouping and scheduling simulator

The system reads a program's call graph from `caller dep dep ...` lines. It
marks the "major" functions and finds groups of mutually recursive functions by
depth-first search. It then numbers at most 20 schedulable units, each with a
burst time. Three simulations consume such work:

- a single-processor scheduler that runs threads first-in first-out or round
  robin with a one-second quantum;
- a DAG scheduler that is meant to run subtasks in batches once their
  dependencies have finished; as written it stops after the first wave (see
  Findings);
- a task queue shared by several processors.

The project models these four pieces as pure Dafny functions over immutable
datatypes and proves what they promise. The modules are:

- `Seqs` (`seqs.dfy`): small facts about sequences, shared by the others.
- `CallGraph` (`call_graph.dfy`): `parseCallGraph` and `identifyMajorFunctions`.
  Each line is tokenised the way `istringstream >> std::string` reads it, and
  the three tables are updated.
- `Cycles` (`cycles.dfy`): `detectCycle` and `groupCycles`, with the `visited`
  and `inStack` sets threaded through as state. `CyclesExample` works through a
  three-line call graph.
- `ThreadUnits` (`thread_units.dfy`): `assignThreads`, meaning the unit
  numbering, the group burst sums and the cap of 20.
- `ThreadSimulation` (`thread_simulation.dfy`): `addThread`, `runFIFO` and
  `runRoundRobin`. A virtual clock replaces the sleeps, and each run returns
  its trace of (thread, milliseconds) slices.
- `DagScheduler` (`dag_scheduler.dfy`):
  - the `DAGScheduler` constructor;
  - the seeding and batch draining of `execute`;
  - `onTaskComplete`, run sequentially;
  - a corrected executor (see Findings).
- `MultiProcessor` (`task_queue.dfy`): `TaskQueue` as a state machine with a
  non-blocking `pop`, and a processor's loop.

Inputs the source takes from its environment are parameters of the model:

- `std::rand()`: `rand: nat -> nat` gives the k-th value drawn.
- The iteration order of every `unordered_map`/`unordered_set`:
  - `roots`, the function-table keys in table order;
  - `order`, the second loop of `assignThreads`;
  - `keyOrder`, the in-degree map;
  - `Adjacency`, each dependency set listed in iteration order.

No particular order is assumed anywhere.

## Model

| member | source | states |
|---|---|---|
| CallGraph.Tokens | MTS.cpp:142-144 | the `>>` extraction of `std::string` words from one line, leading white space skipped; TokensSkip and TokensWord fix its result on every line |
| CallGraph.TokensAreWords | MTS.cpp:142-144 | every token that the `>>` extraction reads from a line is non-empty and free of white space |
| CallGraph.TokensSkip | MTS.cpp:142-144 | any run of white space (spaces, tabs, line ends) before the rest of a line yields no token |
| CallGraph.TokensWord | MTS.cpp:142-144 | a white-space-free word followed by white space or the end of the line is read as exactly one token, and reading continues after it |
| CallGraph.TokensJoin | MTS.cpp:142-144 | a line made of well-formed tokens separated by spaces reads back as exactly those tokens, in order |
| CallGraph.BlankLine | MTS.cpp:142 | a line yields no token exactly when it is all white space; such a line changes nothing (see ParseTokens) |
| CallGraph.Burst | MTS.cpp:151 | a drawn burst time always lies in [300, 400] |
| CallGraph.AddCalls | MTS.cpp:144-147 | `callCount[dep]` grows by the number of times `dep` occurs among the line's dependency tokens, duplicates included, and only named dependencies gain entries |
| CallGraph.ParseTokens | MTS.cpp:142-153 | an empty token list changes nothing. Otherwise the first token becomes the entry's name and the rest become its dependencies in order, with the burst in range and `isMajor` false. The entry overwrites an earlier one of the same name while other entries stay. `dependencyGraph[name]` accumulates the union of dependencies, and each call count grows by its occurrences |
| CallGraph.IdentifyMajorFunctions | MTS.cpp:115-124 | an entry becomes major iff it has more than two dependencies or is called more than once; nothing is reset to false. Only `isMajor` changes. Because the count test sits behind a short-circuit or, `callCount[name]` is read, inserting a 0 entry, only for entries with at most two dependencies; the call counts read the same |
| CallGraph.ParseLines | MTS.cpp:138-155 | the `getline` loop, one line after another; its effect is stated by ParseLinesFacts |
| CallGraph.ParseCallGraph | MTS.cpp:127-158 | read every line, then classify; its effect is stated by ParseCallGraphFacts |
| CallGraph.ParseLinesFacts | MTS.cpp:138-155 | over a run of lines: the table keys are the earlier keys plus the first token of every non-blank line; every entry stays unclassified and in range; call counts add up per line |
| CallGraph.ParseCallGraphFacts | MTS.cpp:127-158 | after `parseCallGraph`, the table holds exactly the declared callers, each under its own name with a burst in [300, 400]. Each is major iff it has more than two dependencies or is named as a dependency more than once in the whole input, and each call count is that number of occurrences |
| CallGraph.IdentifyMajorIdempotent | MTS.cpp:115-124 | classifying twice gives the same table as classifying once |
| Cycles.DetectCycle | MTS.cpp:32-51 | `visited` only grows during a probe |
| Cycles.DetectDeps | MTS.cpp:42-47 | the dependency loop only grows `visited` |
| Cycles.DetectCycleFacts | MTS.cpp:32-51 | the state stays well formed and each name is expanded at most once. A visited name off the stack returns false at once with nothing changed. A failed probe restores `inStack` and the cycle, with the name erased. A successful one adds the name to the cycle and leaves every added name on the stack |
| Cycles.DetectCycleWalk | MTS.cpp:33-46 | on success, the names added to the cycle are exactly a dependency walk from the probed name to a name already on the stack; this is the whole recursion path back to the root |
| Cycles.GroupFrom | MTS.cpp:53-61 | the group list only grows, by at most one group per root |
| Cycles.GroupFromFacts | MTS.cpp:53-61 | the roots loop keeps the state well formed and visits every root, and each new group is a non-empty set of names |
| Cycles.GroupCycles | MTS.cpp:53-61 | as written, each name's dependency loop is entered at most once over the whole pass; every root ends up visited, and each group is a non-empty set |
| Cycles.GroupCyclesClean | MTS.cpp:53-61 | the corrected pass (stack emptied per root) keeps the same guarantees |
| Cycles.GroupCyclesCleanFindsCycles | MTS.cpp:53-61 | in the corrected pass every reported group contains a closed dependency walk: a real cycle |
| CyclesExample.FirstRoot | MTS.cpp:32-51 | on `A B`, `B A`, `C A`, the first root `A` finds the cycle {A, B} and leaves both on the stack |
| CyclesExample.SecondRootDirty | MTS.cpp:33-35 | the stale stack makes root `B` report {B} at once |
| CyclesExample.ThirdRootDirty | MTS.cpp:32-51 | the stale stack makes the acyclic `C` report {A, C} |
| CyclesExample.DirtyStackGroups | MTS.cpp:53-61 | as written, the example yields the groups {A, B}, {B}, {A, C}, and no closed walk lies inside {B} |
| CyclesExample.CleanStackGroups | MTS.cpp:53-61 | with the stack emptied per root, the example yields only {A, B} |
| ThreadUnits.AssignGroups | MTS.cpp:71-94 | the groups loop numbers groups consecutively after the existing units. It stops at the cap, and each unit's burst is the sum of its members' bursts |
| ThreadUnits.AssignMajors | MTS.cpp:97-109 | the second loop numbers exactly the candidates (declared, major, ungrouped, in table order) consecutively until the cap |
| ThreadUnits.AssignThreads | MTS.cpp:63-113 | ids are 1, 2, 3, ... with no gap and there are at most 20 units. The groups come first with summed bursts, then each major ungrouped function alone with its own burst |
| ThreadUnits.CandidatesExactly | MTS.cpp:97-101 | a name is a candidate of the second loop iff it is in the table order, declared, major and in no numbered group; with a duplicate-free order it is a candidate at most once |
| ThreadUnits.NumberedAlone | MTS.cpp:96-109 | a name is numbered on its own iff it is among the first `20 - g` candidates, `g` being the number of numbered groups; when all candidates fit under the cap, iff it is declared, major and ungrouped |
| ThreadUnits.SinglesAre | MTS.cpp:97-108 | the units after the groups number exactly a prefix of the candidates, one name each |
| ThreadUnits.GroupsAndSinglesDisjoint | MTS.cpp:82-101 | no function of a numbered group is also numbered on its own |
| ThreadUnits.SinglesDistinct | MTS.cpp:97-108 | no function is numbered on its own twice |
| ThreadUnits.GroupBurstPermutation | MTS.cpp:82-86 | a group's burst does not depend on the order its set is copied in |
| ThreadSimulation.NewSimThread | ThreadSimulation.cpp:9-16 | a new thread has the given id, name and burst and is not completed |
| ThreadSimulation.AddThread | ThreadSimulation.cpp:26-27 | the thread is appended at the back and nothing else changes |
| ThreadSimulation.RunFIFO | ThreadSimulation.cpp:31-40 | threads run in insertion order, each once for exactly its burst time. The queue ends empty and the clock advances by the total burst |
| ThreadSimulation.FIFOAfterAdd | ThreadSimulation.cpp:26-40 | adding a thread and then running FIFO runs the earlier threads as before, then the new one |
| ThreadSimulation.RoundRobinStep | ThreadSimulation.cpp:47-64 | a thread whose burst fits the quantum runs for exactly its burst and is not requeued. A longer one runs for exactly one quantum and goes to the temporary queue with that much less, still positive, burst. The swap keeps the ready queue non-empty while the temporary queue is not |
| ThreadSimulation.StepShrinks | ThreadSimulation.cpp:47-65 | each iteration finishes a thread or takes a positive quantum off one, so the loop terminates |
| ThreadSimulation.RoundRobinLoop | ThreadSimulation.cpp:47-65 | the `while (!readyQueue.empty())` loop from a pair of queues exits with both `readyQueue` and `tempQueue` empty; it terminates by StepShrinks and its trace equals single-queue round robin by LoopIsReference |
| ThreadSimulation.RunRoundRobin | ThreadSimulation.cpp:43-67 | round robin terminates with the ready queue the loop leaves behind empty. The clock advances by the total burst, and no slice exceeds the quantum |
| ThreadSimulation.LoopIsReference | ThreadSimulation.cpp:45-65 | the two-queue loop with its swap produces the same trace as textbook round robin over one queue |
| ThreadSimulation.ReferenceConserves | ThreadSimulation.cpp:51-59 | in single-queue round robin, each thread id is given exactly the burst it arrived with |
| ThreadSimulation.ReferenceConservesTotal | ThreadSimulation.cpp:51-59 | single-queue round robin advances the clock by the total burst |
| ThreadSimulation.ReferenceSlicesBounded | ThreadSimulation.cpp:51-59 | no slice of single-queue round robin exceeds the quantum |
| ThreadSimulation.RoundRobinConserves | ThreadSimulation.cpp:43-67 | `runRoundRobin` gives every thread id exactly its original burst time |
| ThreadSimulation.ShortBurstsReferenceIsFIFO | ThreadSimulation.cpp:51-54 | when every burst fits the quantum, single-queue round robin is FIFO |
| ThreadSimulation.RoundRobinShortIsFIFO | ThreadSimulation.cpp:31-67 | when every burst fits the quantum, `runRoundRobin` and `runFIFO` produce the same trace |
| DagScheduler.AddEdges | dag_scheduler.hpp:38-40 | `graph[dep]` receives the task's id once per occurrence of `dep` among its dependencies, at the back |
| DagScheduler.AddSubTask | dag_scheduler.hpp:35-41 | one iteration of the constructor's loop; its effect is stated by AddSubTaskStores and AddSubTaskEdges |
| DagScheduler.AddSubTaskStores | dag_scheduler.hpp:35-37 | the task is filed under its id, replacing an earlier task with that id, with in-degree its dependency count; other entries, `completed` and `total` stay |
| DagScheduler.AddSubTaskEdges | dag_scheduler.hpp:38-40 | the task's id is appended to `graph[dep]` once per listing of `dep`, and to no other list |
| DagScheduler.LastIndex | dag_scheduler.hpp:35-37 | finds the last task with a given id, or reports that there is none |
| DagScheduler.Load | dag_scheduler.hpp:35-41 | the constructor loop stores, for each id, the last task with that id and its dependency count, and builds the successor lists in list order |
| DagScheduler.Construct | dag_scheduler.hpp:33-41 | `total` is the list length and `completed` 0. Each id maps to its last task, whose in-degree is its dependency count, and `graph[dep]` lists each task once per occurrence of `dep` |
| DagScheduler.TotalCountsRepeats | dag_scheduler.hpp:34-37 | `total` counts repeated ids twice: it is at least the number of stored subtasks, and strictly more when an id repeats |
| DagScheduler.ZeroIn | dag_scheduler.hpp:47-49 | the seeding loop picks exactly the keys of in-degree 0, each once |
| DagScheduler.ZeroInOrder | dag_scheduler.hpp:47-49 | the picked keys keep the map's iteration order: each sits at a strictly later position of it than the one before |
| DagScheduler.InitialReady | dag_scheduler.hpp:47-49 | the initial ready queue holds exactly the ids of in-degree 0, each once |
| DagScheduler.Release | dag_scheduler.hpp:80-85 | each child loses one per edge. A child is reported as reaching 0 iff the edges took it from a positive count to 0 or below, and then only once |
| DagScheduler.OnTaskComplete | dag_scheduler.hpp:78-87 | each child's in-degree drops by its number of edges from `id`, `completed` goes up by one, and nothing else changes |
| DagScheduler.OnTaskCompleteCommutes | dag_scheduler.hpp:78-87 | two completions give the same state in either order, so a batch's finishing order does not matter |
| DagScheduler.Start | dag_scheduler.hpp:44-49 | `execute` starts with the constructed scheduler, nothing finished, and the in-degree-0 ids queued |
| DagScheduler.Complete | dag_scheduler.hpp:63-69 | a batch thread applies `onTaskComplete` and leaves the ready queue alone |
| DagScheduler.RunBatch | dag_scheduler.hpp:63-74 | a batch finishes all its ids in order, raises `completed` by the batch size and leaves the ready queue alone |
| DagScheduler.Round | dag_scheduler.hpp:51-75 | a pass drains the ready queue completely into the batch, so the queue is empty afterwards |
| DagScheduler.IdleForever | dag_scheduler.hpp:51-75 | with an empty queue and work left, further passes change nothing |
| DagScheduler.AsWrittenStalls | dag_scheduler.hpp:51-87 | as written, once any subtask has a dependency, only the initially ready subtasks ever run; `completed < total` persists for any number of passes |
| DagScheduler.ReadyBelowTotal | dag_scheduler.hpp:33-49 | once any subtask has a dependency, fewer subtasks start ready than `total` counts |
| DagScheduler.CompleteFixed | dag_scheduler.hpp:78-87 | the corrected completion updates the scheduler as `onTaskComplete` does. It also appends to the ready queue exactly the children it takes to in-degree 0, each once |
| DagScheduler.Execute | dag_scheduler.hpp:44-76 | the `while (completed < total)` loop as written, for at most `fuel` passes: `total` stays, earlier finished subtasks stay in place, and `completed` rises by exactly the number of subtasks finished |
| DagScheduler.ExecuteFixed | dag_scheduler.hpp:44-76 | the same loop with the corrected completion, with the same guarantees |
| DagScheduler.RoundFixed | dag_scheduler.hpp:51-75 | one corrected pass finishes the whole ready queue, in order, and raises `completed` by its length |
| DagScheduler.RunBatchFixed | dag_scheduler.hpp:63-74 | a corrected batch finishes its ids in order and raises `completed` by its size |
| DagScheduler.CompleteFixedKeeps | dag_scheduler.hpp:78-87 | one corrected completion keeps the executor invariant: in-degrees count unfinished dependencies, and the queue holds each ready subtask once |
| DagScheduler.RoundFixedKeeps | dag_scheduler.hpp:51-75 | a corrected pass keeps the invariant and finishes the whole ready queue |
| DagScheduler.ReadyWhileUnfinished | dag_scheduler.hpp:51-60 | on an acyclic graph, while some subtask is unfinished the corrected ready queue is not empty |
| DagScheduler.PassProgress | dag_scheduler.hpp:51-75 | each corrected pass, while work remains, keeps the invariant and raises `completed` |
| DagScheduler.ExecuteFixedProgress | dag_scheduler.hpp:51-75 | given as many passes as there are unfinished subtasks, the corrected loop reaches `completed >= total` |
| DagScheduler.ExecuteFixedCompletes | dag_scheduler.hpp:44-87 | on a well-shaped acyclic scheduler, the corrected executor finishes every subtask exactly once, each after its dependencies. It stops with `completed == total` and an empty queue |
| DagScheduler.EdgesIntoCount | dag_scheduler.hpp:35-41 | with distinct ids, `graph[b]` lists each subtask as often as `b` occurs among its dependencies |
| DagScheduler.ConstructShaped | dag_scheduler.hpp:33-41 | with distinct ids, the constructor's in-degrees, totals and successor lists agree with the subtask list |
| DagScheduler.FixedExecutorCompletes | dag_scheduler.hpp:33-87 | for a subtask list with distinct ids describing a DAG, the corrected executor finishes every listed subtask exactly once, each after all of its dependencies. It needs at most as many passes as subtasks and stops with `completed == total` |
| MultiProcessor.Push | MultiProcessorEnv.cpp:37-41 | the task is appended at the back and the flag is untouched |
| MultiProcessor.Pop | MultiProcessorEnv.cpp:43-50 | `false` is returned exactly when the flag is set and the queue is empty, and the call would wait exactly when the queue is empty and the flag clear. Otherwise the front task is handed out and removed |
| MultiProcessor.Shutdown | MultiProcessorEnv.cpp:52-56 | the flag is set and the queued tasks stay |
| MultiProcessor.FifoOrder | MultiProcessorEnv.cpp:37-50 | under any sequence of operations, the tasks popped followed by those still queued are the initial queue followed by the pushed tasks, in order: nothing is lost, duplicated or overtaken |
| MultiProcessor.ShutdownSticks | MultiProcessorEnv.cpp:34-55 | nothing clears the shutdown flag once it is set |
| MultiProcessor.ProcessorLoop | MultiProcessorEnv.cpp:69-77 | a processor runs every queued task in order and counts exactly one completion per task. It stops with `false` iff the flag is set, and otherwise would wait |
| MultiProcessor.DrainAfterShutdown | MultiProcessorEnv.cpp:43-55 | after `shutdown`, the remaining tasks are still drained in order before `pop` returns `false` |
| MultiProcessor.PushedBatchRuns | MultiProcessorEnv.cpp:37-77 | tasks pushed onto a fresh queue and followed by `shutdown` are each run exactly once, in push order, by a processor, and counted |

## Left out

- Output: all file and console output is left out. This covers the `threads.txt`/`thread_grouped.txt` writes, `std::cout`, `std::cerr`, opening the input file, and the `main` functions. A parse is given the file's lines.
- Randomness: `std::srand(time(0))` is not modelled, and `std::rand()` is the parameter `rand`. The thread simulation's random bursts belong to its `main`.
- Iteration order: hash-map and hash-set iteration orders are parameters, because the standard library fixes none.
- Real concurrency:
  - A DAG batch's threads complete one after another in batch order; `OnTaskCompleteCommutes` shows the order does not matter.
  - Mutexes and atomics have no sequential effect.
  - `cv.wait` in `pop` becomes the `WouldBlock` answer.
  - Several processors sharing one queue are covered only through operation sequences (`FifoOrder`), not as threads.
- Time: sleeps become the virtual clock, meaning the slices in a trace. A subtask's `work` is a no-op.
- Default-entry insertions: the dependency loop of `detectCycle` and the loop in `onTaskComplete` read `dependencyGraph[funcName]` and `graph[id]`, which insert empty entries. These entries are not kept as state, because no later read can tell them from absent ones. Reading `functions[func]` in `assignThreads` likewise inserts a default entry for an undeclared group member; this is modelled as reading burst 0. Such an entry is never major, so it is never numbered.
- Loop bounds:
  - `Execute`: the `while (completed < total)` loop is modelled for a given number of passes (`fuel`). `AsWrittenStalls` holds for every number of passes.
  - `ExecuteFixed`: the same pass bound applies; `ExecuteFixedCompletes` shows that as many passes as subtasks suffice.
- Integer width: every C++ integer is unbounded in the model, so none of the following wraps:
  - a group's `totalBurstTime` (MTS.cpp:74-84), at most 400 times the group's size, which the cap of 20 units does not bound;
  - the `int` counter `callCount` (MTS.cpp:147), one per dependency token in the input;
  - `indegree` and `total` (dag_scheduler.hpp:33-41), which the code narrows from `size_t` to `int`;
  - quantum subtraction from a positive burst (ThreadSimulation.cpp:58).
- MultiProcessor.ProcessorLoop: a task's `work()`, which runs `DAGScheduler::execute`, is taken to return. With the executor as written it does not return for any subtask list in which some subtask lists a dependency (`DagScheduler.AsWrittenStalls`); `main`'s tasks all have one, so `completedTasks++` (MultiProcessorEnv.cpp:69-77) is never reached and `main` never gets to `shutdown()` (MultiProcessorEnv.cpp:103-107). `MultiProcessor.PushedBatchRuns` rests on the same assumption.
- Out of scope: `SimThread::completed` is never touched by the scheduler and is carried unchanged. `process()` just calls `groupCycles` and then `assignThreads`. The Clang-based extractors and the plotting script are not part of this model.
- No topological ordering and no multiprocessor metrics exist in the code, so none is modelled.
- Cycle contents: `detectCycle` (MTS.cpp:32-51) puts into the group every name on the recursion path back to the root, not only the names on the cycle; `Cycles.GroupFrom` does the same.

## Findings

| source | as written | input that shows it | evidently intended | confidence | as-written member | corrected member |
|---|---|---|---|---|---|---|
| MTS.cpp:43-61 | a successful `detectCycle` returns without erasing its names from `inStack`. `groupCycles` never clears it, so later roots see stale on-stack names and report groups that are not cycles | call graph `A B`, `B A`, `C A` with roots in table order A, B, C: the groups are {A, B}, {B}, {A, C}, though {B} holds no cycle and `C` is on none | each root's search starts with an empty stack, so that every group is a real cycle | not executed | CyclesExample.DirtyStackGroups | Cycles.GroupCyclesCleanFindsCycles |
| dag_scheduler.hpp:78-87 | `onTaskComplete` only calls `notify_all` when a child's in-degree reaches 0, and never pushes the child onto the ready queue. Nothing else refills the queue, so `execute` spins forever once the first wave is done | subtasks 1 (no dependencies) and 2 (depends on 1): subtask 2 never runs and `completed` stays 1 < 2 | a child whose in-degree reaches 0 joins the ready queue, so every subtask of a DAG runs once, after its dependencies | not executed | DagScheduler.AsWrittenStalls | DagScheduler.FixedExecutorCompletes |

=== FILE: call_graph.dfy ===
/**
 * The call-graph table of the thread-grouping pass: reading `caller dep dep ...`
 * lines into the function table, the dependency-set graph and the call counts,
 * then marking the "major" functions.
 *
 * `std::rand()` is replaced by a parameter `rand` giving the k-th value the
 * generator returns; the table counts how many values it has drawn.
 */
module CallGraph {
  import opened Seqs

  /** Burst times are drawn as `MinBurst + rand() % BurstSpan`, i.e. in [300, 400]. */
  const MinBurst: int := 300
  const BurstSpan: int := 101

  /** One declared caller of the call graph. */
  datatype Function = Function(name: string, dependencies: seq<string>, isMajor: bool, burstTime: int)

  /** The state `parseCallGraph` builds: the tables plus the number of generator draws so far. */
  datatype CallGraphProcessor = CallGraphProcessor(
    functions: map<string, Function>,
    dependencyGraph: map<string, set<string>>,
    callCount: map<string, int>,
    draws: nat)

  const Empty := CallGraphProcessor(map[], map[], map[], 0)

  // ---------------------------------------------------------------------------
  // Tokenising a line the way `istringstream >> std::string` does

  /** The characters `isspace` accepts in the C locale: space, tab, newline, vertical tab, form feed, carriage return. */
  predicate IsSpace(c: char) {
    c == ' ' || ('\t' <= c <= '\r')
  }

  /** A token: non-empty and free of white space. */
  predicate IsWord(w: string) {
    |w| > 0 && forall k :: 0 <= k < |w| ==> !IsSpace(w[k])
  }

  /** Length of the longest white-space-free prefix. */
  function WordLength(s: string): (n: nat)
    ensures n <= |s|
    ensures forall k :: 0 <= k < n ==> !IsSpace(s[k])
    ensures n < |s| ==> IsSpace(s[n])
  {
    if |s| == 0 || IsSpace(s[0]) then 0 else 1 + WordLength(s[1..])
  }

  /**
   * The tokens successive `ss >> word` extractions read from one line: white
   * space is skipped, then the longest run without white space is one token.
   */
  function Tokens(line: string): seq<string>
    decreases |line|
  {
    if |line| == 0 then []
    else if IsSpace(line[0]) then Tokens(line[1..])
    else
      var n := WordLength(line);
      [line[..n]] + Tokens(line[n..])
  }

  /** Every token read is non-empty and free of white space. */
  lemma {:induction false} TokensAreWords(line: string)
    ensures forall k :: 0 <= k < |Tokens(line)| ==> IsWord(Tokens(line)[k])
    decreases |line|
  {
    if |line| > 0 {
      if IsSpace(line[0]) {
        TokensAreWords(line[1..]);
      } else {
        var n := WordLength(line);
        TokensAreWords(line[n..]);
        assert IsWord(line[..n]);
      }
    }
  }

  /** Tokens separated by single spaces: the inverse direction of `Tokens`. */
  function Join(ts: seq<string>): string {
    if |ts| == 0 then ""
    else if |ts| == 1 then ts[0]
    else ts[0] + " " + Join(ts[1..])
  }

  lemma WordLengthOfWord(w: string, rest: string)
    requires IsWord(w)
    requires rest == [] || IsSpace(rest[0])
    ensures WordLength(w + rest) == |w|
    decreases |w|
  {
    if |w| > 1 {
      assert (w + rest)[1..] == w[1..] + rest;
      WordLengthOfWord(w[1..], rest);
    } else {
      assert (w + rest)[1..] == rest;
    }
  }

  /** White space before the rest of a line is skipped: it yields no token. */
  lemma {:induction false} TokensSkip(ws: string, rest: string)
    requires forall k :: 0 <= k < |ws| ==> IsSpace(ws[k])
    ensures Tokens(ws + rest) == Tokens(rest)
    decreases |ws|
  {
    if |ws| > 0 {
      assert (ws + rest)[0] == ws[0];
      assert (ws + rest)[1..] == ws[1..] + rest;
      TokensSkip(ws[1..], rest);
    } else {
      assert ws + rest == rest;
    }
  }

  /**
   * A word followed by white space or the end of the line is read as one token,
   * and reading goes on after it. With `TokensSkip` this fixes the tokens of
   * every line, whatever runs of white space separate its words.
   */
  lemma TokensWord(w: string, rest: string)
    requires IsWord(w)
    requires rest == [] || IsSpace(rest[0])
    ensures Tokens(w + rest) == [w] + Tokens(rest)
  {
    var line := w + rest;
    WordLengthOfWord(w, rest);
    assert line[0] == w[0];
    assert line[..|w|] == w;
    assert line[|w|..] == rest;
  }

  /** A line made of well-formed tokens separated by spaces reads back as those tokens. */
  lemma {:induction false} TokensJoin(ts: seq<string>)
    requires forall k :: 0 <= k < |ts| ==> IsWord(ts[k])
    ensures Tokens(Join(ts)) == ts
    decreases |ts|
  {
    if |ts| == 1 {
      var w := ts[0];
      assert w == w + [];
      WordLengthOfWord(w, []);
      assert w[..|w|] == w;
      assert w[|w|..] == [];
    } else if |ts| > 1 {
      var w := ts[0];
      var rest := " " + Join(ts[1..]);
      var line := w + rest;
      assert Join(ts) == line;
      WordLengthOfWord(w, rest);
      assert line[..|w|] == w;
      assert line[|w|..] == rest;
      assert rest[1..] == Join(ts[1..]);
      TokensJoin(ts[1..]);
      assert ts == [w] + ts[1..];
    }
  }

  /** A line yields no token exactly when it is all white space. */
  lemma {:induction false} BlankLine(line: string)
    ensures Tokens(line) == [] <==> forall k :: 0 <= k < |line| ==> IsSpace(line[k])
    decreases |line|
  {
    if |line| > 0 && IsSpace(line[0]) {
      BlankLine(line[1..]);
      assert forall k :: 0 < k < |line| ==> line[k] == line[1..][k - 1];
    }
  }

  // ---------------------------------------------------------------------------
  // Lookups with the default that `operator[]` creates

  function CallsTo(p: CallGraphProcessor, name: string): int {
    if name in p.callCount then p.callCount[name] else 0
  }

  function DepsOf(p: CallGraphProcessor, name: string): set<string> {
    if name in p.dependencyGraph then p.dependencyGraph[name] else {}
  }

  /** The burst time one generator value gives. */
  function Burst(draw: nat): (b: int)
    ensures MinBurst <= b <= MinBurst + BurstSpan - 1
  {
    MinBurst + draw % BurstSpan
  }

  // ---------------------------------------------------------------------------
  // Parsing

  /** `callCount[dep]++` for every dependency token, duplicates included. */
  function AddCalls(cc: map<string, int>, deps: seq<string>): (r: map<string, int>)
    ensures r.Keys == cc.Keys + Elems(deps)
    ensures forall d :: d in r ==> r[d] == (if d in cc then cc[d] else 0) + multiset(deps)[d]
    decreases |deps|
  {
    if |deps| == 0 then cc
    else
      var d := deps[0];
      assert deps == [d] + deps[1..];
      AddCalls(cc[d := (if d in cc then cc[d] else 0) + 1], deps[1..])
  }

  /** The effect of one line once it has been split into tokens. */
  function ParseTokens(p: CallGraphProcessor, ts: seq<string>, rand: nat -> nat): (q: CallGraphProcessor)
    ensures |ts| == 0 ==> q == p
    ensures |ts| > 0 ==>
      var name := ts[0];
      var deps := ts[1..];
      && q.draws == p.draws + 1
      && name in q.functions
      && q.functions[name].name == name
      && q.functions[name].dependencies == deps
      && !q.functions[name].isMajor
      && MinBurst <= q.functions[name].burstTime <= MinBurst + BurstSpan - 1
      && q.functions.Keys == p.functions.Keys + {name}
      && (forall other :: other in p.functions && other != name ==> q.functions[other] == p.functions[other])
      && (|deps| == 0 ==> q.dependencyGraph == p.dependencyGraph)
      && (|deps| > 0 ==> q.dependencyGraph == p.dependencyGraph[name := DepsOf(p, name) + Elems(deps)])
      && (forall d :: CallsTo(q, d) == CallsTo(p, d) + multiset(deps)[d])
  {
    if |ts| == 0 then p
    else
      var name := ts[0];
      var deps := ts[1..];
      var graph := if |deps| == 0 then p.dependencyGraph
                   else p.dependencyGraph[name := DepsOf(p, name) + Elems(deps)];
      var f := Function(name, deps, false, Burst(rand(p.draws)));
      CallGraphProcessor(p.functions[name := f], graph, AddCalls(p.callCount, deps), p.draws + 1)
  }

  function ParseLine(p: CallGraphProcessor, line: string, rand: nat -> nat): CallGraphProcessor {
    ParseTokens(p, Tokens(line), rand)
  }

  /** The `getline` loop of `parseCallGraph`, before classification. */
  function ParseLines(p: CallGraphProcessor, lines: seq<string>, rand: nat -> nat): CallGraphProcessor
    decreases |lines|
  {
    if |lines| == 0 then p else ParseLines(ParseLine(p, lines[0], rand), lines[1..], rand)
  }

  /**
   * Marks a function major when it has more than two dependency tokens or is
   * called more than once. The count test sits behind a short-circuit `||`, so
   * `callCount[funcName]` is read, and a 0 entry inserted for a function nobody
   * calls, only for a function with at most two dependency tokens; every count
   * reads as before.
   */
  function IdentifyMajorFunctions(p: CallGraphProcessor): (q: CallGraphProcessor)
    ensures q.functions.Keys == p.functions.Keys
    ensures q.dependencyGraph == p.dependencyGraph && q.draws == p.draws
    ensures q.callCount.Keys == p.callCount.Keys + (set k | k in p.functions && |p.functions[k].dependencies| <= 2)
    ensures forall d :: CallsTo(q, d) == CallsTo(p, d)
    ensures forall k :: k in q.functions ==>
      && q.functions[k].name == p.functions[k].name
      && q.functions[k].dependencies == p.functions[k].dependencies
      && q.functions[k].burstTime == p.functions[k].burstTime
      && (q.functions[k].isMajor <==>
            p.functions[k].isMajor || |p.functions[k].dependencies| > 2 || CallsTo(p, k) > 1)
  {
    var fs := map k | k in p.functions ::
      var f := p.functions[k];
      if |f.dependencies| > 2 || CallsTo(p, k) > 1 then f.(isMajor := true) else f;
    var probed := set k | k in p.functions && |p.functions[k].dependencies| <= 2;
    var cc := map k | k in p.callCount.Keys + probed :: CallsTo(p, k);
    p.(functions := fs, callCount := cc)
  }

  /** `parseCallGraph`: read every line, then classify. */
  function ParseCallGraph(lines: seq<string>, rand: nat -> nat): CallGraphProcessor {
    IdentifyMajorFunctions(ParseLines(Empty, lines, rand))
  }

  // ---------------------------------------------------------------------------
  // Properties of a whole parse

  /** The first token of every non-blank line. */
  function Callers(lines: seq<string>): set<string> {
    set k | 0 <= k < |lines| && |Tokens(lines[k])| > 0 :: Tokens(lines[k])[0]
  }

  /** How many dependency tokens name `d`, over all lines. */
  function CallsIn(lines: seq<string>, d: string): nat
    decreases |lines|
  {
    if |lines| == 0 then 0
    else
      var ts := Tokens(lines[0]);
      (if |ts| == 0 then 0 else multiset(ts[1..])[d]) + CallsIn(lines[1..], d)
  }

  /** Every entry is filed under its own name, unclassified, with a burst time in range. */
  predicate Unclassified(p: CallGraphProcessor) {
    forall k :: k in p.functions ==>
      && p.functions[k].name == k
      && !p.functions[k].isMajor
      && MinBurst <= p.functions[k].burstTime <= MinBurst + BurstSpan - 1
  }

  /** The callers of a non-empty list: those of its first line and those of the rest. */
  lemma CallersCons(lines: seq<string>)
    requires |lines| > 0
    ensures Callers(lines) == (if |Tokens(lines[0])| > 0 then {Tokens(lines[0])[0]} else {}) + Callers(lines[1..])
  {
    var head := if |Tokens(lines[0])| > 0 then {Tokens(lines[0])[0]} else {};
    forall c | c in Callers(lines)
      ensures c in head + Callers(lines[1..])
    {
      var k :| 0 <= k < |lines| && |Tokens(lines[k])| > 0 && Tokens(lines[k])[0] == c;
      if k > 0 {
        assert lines[1..][k - 1] == lines[k];
      }
    }
    forall c | c in Callers(lines[1..])
      ensures c in Callers(lines)
    {
      var k :| 0 <= k < |lines[1..]| && |Tokens(lines[1..][k])| > 0 && Tokens(lines[1..][k])[0] == c;
      assert lines[k + 1] == lines[1..][k];
    }
  }

  lemma {:induction false} ParseLinesFacts(p: CallGraphProcessor, lines: seq<string>, rand: nat -> nat)
    requires Unclassified(p)
    ensures Unclassified(ParseLines(p, lines, rand))
    ensures ParseLines(p, lines, rand).functions.Keys == p.functions.Keys + Callers(lines)
    ensures forall d :: CallsTo(ParseLines(p, lines, rand), d) == CallsTo(p, d) + CallsIn(lines, d)
    decreases |lines|
  {
    if |lines| > 0 {
      var p1 := ParseLine(p, lines[0], rand);
      assert Unclassified(p1);
      ParseLinesFacts(p1, lines[1..], rand);
      CallersCons(lines);
    } else {
      assert Callers(lines) == {};
    }
  }

  /**
   * After `parseCallGraph` every declared caller has an entry under its name with a
   * burst time in [300, 400], is major exactly when it has more than two dependency
   * tokens or is named more than once as a dependency, and every call count is the
   * number of dependency tokens naming it.
   */
  lemma ParseCallGraphFacts(lines: seq<string>, rand: nat -> nat)
    ensures var p := ParseCallGraph(lines, rand);
      && p.functions.Keys == Callers(lines)
      && (forall d :: CallsTo(p, d) == CallsIn(lines, d))
      && forall k :: k in p.functions ==>
           && p.functions[k].name == k
           && MinBurst <= p.functions[k].burstTime <= MinBurst + BurstSpan - 1
           && (p.functions[k].isMajor <==> |p.functions[k].dependencies| > 2 || CallsIn(lines, k) > 1)
  {
    ParseLinesFacts(Empty, lines, rand);
  }

  /** Classification is a pure post-pass: running it again changes nothing. */
  lemma IdentifyMajorIdempotent(p: CallGraphProcessor)
    ensures IdentifyMajorFunctions(IdentifyMajorFunctions(p)) == IdentifyMajorFunctions(p)
  {
    var q := IdentifyMajorFunctions(p);
    var r := IdentifyMajorFunctions(q);
    assert r.functions == q.functions;
  }
}

=== FILE: cycles.dfy ===
/**
 * Cycle detection and grouping of the thread-grouping pass (`detectCycle` and
 * `groupCycles`).
 *
 * The dependency sets are given as an `Adjacency`: for every caller, its
 * dependency set listed in the order the hash set happens to iterate it. The
 * roots of `groupCycles` are the function-table keys in the order the hash map
 * iterates them. No particular order is assumed anywhere.
 *
 * The cycle set the source collects is kept as a duplicate-free sequence (an
 * insert skips a name already present); every property is stated on its
 * elements.
 */
module Cycles {
  import opened Seqs

  type Adjacency = map<string, seq<string>>

  /** `a` lists `b` among its dependencies. */
  predicate Edge(succ: Adjacency, a: string, b: string) {
    a in succ && b in succ[a]
  }

  /** The `k`-th step of `w` follows a dependency edge. */
  predicate StepOk(succ: Adjacency, w: seq<string>, k: nat)
    requires k + 1 < |w|
  {
    Edge(succ, w[k], w[k + 1])
  }

  /** Every step of `w` follows a dependency edge. */
  predicate IsWalk(succ: Adjacency, w: seq<string>) {
    forall k: nat :: k + 1 < |w| ==> StepOk(succ, w, k)
  }

  /** A walk of at least one edge that ends where it starts. */
  predicate ClosedWalk(succ: Adjacency, c: seq<string>) {
    |c| >= 2 && c[0] == c[|c| - 1] && IsWalk(succ, c)
  }

  /** Every name the search can reach through an edge, plus the callers themselves. */
  function Universe(succ: Adjacency): set<string> {
    succ.Keys + set k, d | k in succ && d in succ[k] :: d
  }

  /**
   * The search state shared by every root of one `groupCycles` pass: the
   * `visited` and `inStack` sets, and the names whose dependency loop was
   * entered, in order.
   */
  datatype Dfs = Dfs(visited: set<string>, inStack: set<string>, expanded: seq<string>)

  /** A name is visited exactly when its dependency loop was entered, once. */
  predicate Wf(st: Dfs) {
    && st.inStack <= st.visited
    && Elems(st.expanded) == st.visited
    && NoDups(st.expanded)
  }

  /** What `detectCycle` returns, with the state and the cycle set it leaves behind. */
  datatype Probe = Probe(found: bool, st: Dfs, cycle: seq<string>)

  /** Expanding a caller that was not yet visited leaves fewer names to visit. */
  lemma ExpansionShrinks(succ: Adjacency, visited: set<string>, n: string)
    requires n in succ && n !in visited
    ensures |Universe(succ) - (visited + {n})| < |Universe(succ) - visited|
  {
    assert Universe(succ) - (visited + {n}) == (Universe(succ) - visited) - {n};
  }

  lemma ShrinkingRest(u: set<string>, a: set<string>, b: set<string>)
    requires a <= b
    ensures |u - b| <= |u - a|
  {
    SubsetCard(u - b, u - a);
  }

  /**
   * `detectCycle(n, cycle)`: a name on the stack closes a cycle; a visited name
   * off the stack is a dead end; otherwise the name is expanded and its
   * dependencies tried in turn. On success every frame adds its own name to the
   * cycle and leaves it on the stack. What it keeps invariant is stated by
   * `DetectCycleFacts`.
   */
  function DetectCycle(succ: Adjacency, n: string, st: Dfs, cycle: seq<string>): (r: Probe)
    ensures st.visited <= r.st.visited
    decreases |Universe(succ) - st.visited|, 0, 0
  {
    if n in st.inStack then Probe(true, st, Insert(cycle, n))
    else if n in st.visited then Probe(false, st, cycle)
    else if n !in succ then
      // the dependency loop runs over an empty set: insert and erase leave `inStack` as it was
      Probe(false, Dfs(st.visited + {n}, st.inStack, st.expanded + [n]), cycle)
    else
      var st1 := Dfs(st.visited + {n}, st.inStack + {n}, st.expanded + [n]);
      ExpansionShrinks(succ, st.visited, n);
      var r1 := DetectDeps(succ, succ[n], 0, st1, cycle);
      if r1.found then Probe(true, r1.st, Insert(r1.cycle, n))
      else Probe(false, r1.st.(inStack := r1.st.inStack - {n}), r1.cycle)
  }

  /** The `for (dep : dependencyGraph[funcName])` loop, from the `i`-th dependency on. */
  function DetectDeps(succ: Adjacency, deps: seq<string>, i: nat, st: Dfs, cycle: seq<string>): (r: Probe)
    requires i <= |deps|
    ensures st.visited <= r.st.visited
    decreases |Universe(succ) - st.visited|, 1, |deps| - i
  {
    if i == |deps| then Probe(false, st, cycle)
    else
      var r1 := DetectCycle(succ, deps[i], st, cycle);
      if r1.found then r1
      else
        ShrinkingRest(Universe(succ), st.visited, r1.st.visited);
        DetectDeps(succ, deps, i + 1, r1.st, r1.cycle)
  }

  /** How a probe relates to the state it started from. */
  predicate ProbeFacts(st: Dfs, cycle: seq<string>, r: Probe) {
    && Wf(r.st)
    && IsPrefix(st.expanded, r.st.expanded)
    && (!r.found ==> r.st.inStack == st.inStack && r.cycle == cycle)
    && (r.found ==>
         && Elems(cycle) <= Elems(r.cycle)
         && st.inStack <= r.st.inStack
         && Elems(r.cycle) - Elems(cycle) <= r.st.inStack)
    && (NoDups(cycle) ==> NoDups(r.cycle))
  }

  /**
   * `detectCycle` keeps the search state well formed and only appends to the
   * expansion log; an already-visited name off the stack returns false at once
   * and changes nothing; a failed probe leaves `inStack` and the cycle as they
   * were, with `n` erased from the stack; a successful one adds `n` to the cycle
   * and leaves every name it added on the stack.
   */
  lemma {:induction false} DetectCycleFacts(succ: Adjacency, n: string, st: Dfs, cycle: seq<string>)
    requires Wf(st)
    ensures var r := DetectCycle(succ, n, st, cycle);
      && ProbeFacts(st, cycle, r)
      && n in r.st.visited
      && (n in st.visited && n !in st.inStack ==> r == Probe(false, st, cycle))
      && (!r.found ==> n !in r.st.inStack)
      && (r.found ==> n in r.cycle)
    decreases |Universe(succ) - st.visited|, 0, 1
  {
    if n !in st.visited && n in succ {
      ExpandFacts(succ, n, st, cycle);
    } else if n !in st.visited {
      var st1 := Dfs(st.visited + {n}, st.inStack, st.expanded + [n]);
      assert Wf(st1);
    }
  }

  /** `DetectCycleFacts` for a name that gets expanded. */
  lemma {:induction false} ExpandFacts(succ: Adjacency, n: string, st: Dfs, cycle: seq<string>)
    requires Wf(st) && n !in st.visited && n in succ
    ensures var r := DetectCycle(succ, n, st, cycle);
      && ProbeFacts(st, cycle, r)
      && n in r.st.visited
      && (!r.found ==> n !in r.st.inStack)
      && (r.found ==> n in r.cycle)
    decreases |Universe(succ) - st.visited|, 0, 0
  {
    var st1 := Dfs(st.visited + {n}, st.inStack + {n}, st.expanded + [n]);
    ExpansionShrinks(succ, st.visited, n);
    assert Wf(st1);
    DetectDepsFacts(succ, succ[n], 0, st1, cycle);
    var r1 := DetectDeps(succ, succ[n], 0, st1, cycle);
    PrefixTrans(st.expanded, st1.expanded, r1.st.expanded);
    if r1.found {
      assert DetectCycle(succ, n, st, cycle) == Probe(true, r1.st, Insert(r1.cycle, n));
    } else {
      assert DetectCycle(succ, n, st, cycle) == Probe(false, r1.st.(inStack := r1.st.inStack - {n}), r1.cycle);
    }
  }

  lemma ProbeFactsChain(st: Dfs, cycle: seq<string>, r1: Probe, r: Probe)
    requires ProbeFacts(st, cycle, r1) && !r1.found && ProbeFacts(r1.st, r1.cycle, r)
    ensures ProbeFacts(st, cycle, r)
  {
    PrefixTrans(st.expanded, r1.st.expanded, r.st.expanded);
  }

  lemma {:induction false} DetectDepsFacts(succ: Adjacency, deps: seq<string>, i: nat, st: Dfs, cycle: seq<string>)
    requires Wf(st) && i <= |deps|
    ensures ProbeFacts(st, cycle, DetectDeps(succ, deps, i, st, cycle))
    decreases |Universe(succ) - st.visited|, 1, |deps| - i
  {
    if i < |deps| {
      DetectCycleFacts(succ, deps[i], st, cycle);
      var r1 := DetectCycle(succ, deps[i], st, cycle);
      if !r1.found {
        ShrinkingRest(Universe(succ), st.visited, r1.st.visited);
        DetectDepsFacts(succ, deps, i + 1, r1.st, r1.cycle);
        ProbeFactsChain(st, cycle, r1, DetectDeps(succ, deps, i + 1, r1.st, r1.cycle));
      }
    }
  }

  /** Putting an edge in front of a walk that re-enters the stack or itself keeps that shape. */
  lemma PrependStep(succ: Adjacency, n: string, w1: seq<string>, stack: set<string>)
    requires |w1| >= 1 && IsWalk(succ, w1) && Edge(succ, n, w1[0])
    requires w1[|w1| - 1] in stack + {n} || w1[|w1| - 1] in w1[..|w1| - 1]
    ensures var w := [n] + w1;
      && w[0] == n && IsWalk(succ, w)
      && (w[|w| - 1] in stack || w[|w| - 1] in w[..|w| - 1])
      && Elems(w) == {n} + Elems(w1)
  {
    var w := [n] + w1;
    forall k: nat | k + 1 < |w|
      ensures StepOk(succ, w, k)
    {
      if k > 0 {
        assert StepOk(succ, w1, k - 1);
        assert w[k] == w1[k - 1] && w[k + 1] == w1[k];
      }
    }
    assert w[|w| - 1] == w1[|w1| - 1];
    if w1[|w1| - 1] in w1[..|w1| - 1] {
      var m :| 0 <= m < |w1| - 1 && w1[m] == w1[|w1| - 1];
      assert w[m + 1] == w1[m];
    } else if w1[|w1| - 1] == n {
      assert w[0] == n;
    }
  }

  /**
   * When `detectCycle(n)` succeeds, the names it adds to the cycle are exactly
   * those of a walk from `n` along dependency edges that ends at a name that
   * was already on the stack, either before the call or earlier on the walk.
   */
  lemma {:induction false} DetectCycleWalk(succ: Adjacency, n: string, st: Dfs, cycle: seq<string>)
    returns (w: seq<string>)
    requires Wf(st)
    ensures DetectCycle(succ, n, st, cycle).found ==>
      && |w| >= 1 && w[0] == n && IsWalk(succ, w)
      && (w[|w| - 1] in st.inStack || w[|w| - 1] in w[..|w| - 1])
      && Elems(DetectCycle(succ, n, st, cycle).cycle) == Elems(cycle) + Elems(w)
    decreases |Universe(succ) - st.visited|, 0, 1
  {
    if n in st.inStack {
      w := [n];
      assert Elems(w) == {n};
    } else if n in st.visited || n !in succ {
      w := [];
    } else {
      w := ExpandWalk(succ, n, st, cycle);
    }
  }

  /** `DetectCycleWalk` for a name that gets expanded. */
  lemma {:induction false} ExpandWalk(succ: Adjacency, n: string, st: Dfs, cycle: seq<string>)
    returns (w: seq<string>)
    requires Wf(st) && n !in st.visited && n in succ
    ensures DetectCycle(succ, n, st, cycle).found ==>
      && |w| >= 1 && w[0] == n && IsWalk(succ, w)
      && (w[|w| - 1] in st.inStack || w[|w| - 1] in w[..|w| - 1])
      && Elems(DetectCycle(succ, n, st, cycle).cycle) == Elems(cycle) + Elems(w)
    decreases |Universe(succ) - st.visited|, 0, 0
  {
    var st1 := Dfs(st.visited + {n}, st.inStack + {n}, st.expanded + [n]);
    ExpansionShrinks(succ, st.visited, n);
    var r1 := DetectDeps(succ, succ[n], 0, st1, cycle);
    assert Wf(st1);
    assert DetectCycle(succ, n, st, cycle).found == r1.found;
    var j, w1 := DetectDepsWalk(succ, succ[n], 0, st1, cycle);
    w := [n] + w1;
    if r1.found {
      assert DetectCycle(succ, n, st, cycle).cycle == Insert(r1.cycle, n);
      assert Edge(succ, n, w1[0]) by {
        assert w1[0] == succ[n][j];
      }
      PrependStep(succ, n, w1, st.inStack);
    }
  }

  lemma {:induction false} DetectDepsWalk(succ: Adjacency, deps: seq<string>, i: nat, st: Dfs, cycle: seq<string>)
    returns (j: nat, w: seq<string>)
    requires Wf(st) && i <= |deps|
    ensures DetectDeps(succ, deps, i, st, cycle).found ==>
      && i <= j < |deps|
      && |w| >= 1 && w[0] == deps[j] && IsWalk(succ, w)
      && (w[|w| - 1] in st.inStack || w[|w| - 1] in w[..|w| - 1])
      && Elems(DetectDeps(succ, deps, i, st, cycle).cycle) == Elems(cycle) + Elems(w)
    decreases |Universe(succ) - st.visited|, 1, |deps| - i
  {
    if i == |deps| {
      j, w := i, [];
    } else {
      var r1 := DetectCycle(succ, deps[i], st, cycle);
      if r1.found {
        j := i;
        w := DetectCycleWalk(succ, deps[i], st, cycle);
      } else {
        DetectCycleFacts(succ, deps[i], st, cycle);
        ShrinkingRest(Universe(succ), st.visited, r1.st.visited);
        j, w := DetectDepsWalk(succ, deps, i + 1, r1.st, r1.cycle);
      }
    }
  }

  // ---------------------------------------------------------------------------
  // groupCycles

  /** The groups found so far and the search state they leave. */
  datatype Grouping = Grouping(groups: seq<seq<string>>, st: Dfs)

  const Start := Dfs({}, {}, [])

  /**
   * `groupCycles` from the remaining roots on: `visited` carries over from root
   * to root and each root starts a fresh cycle set. As written, `inStack` also
   * carries over (`clearStack` false); with `clearStack` it is emptied before
   * each root, which is what the search leaves when a successful frame also
   * erases its name on the way out.
   */
  function GroupFrom(succ: Adjacency, roots: seq<string>, st: Dfs, groups: seq<seq<string>>, clearStack: bool): (r: Grouping)
    ensures |groups| <= |r.groups| <= |groups| + |roots| && r.groups[..|groups|] == groups
    decreases |roots|
  {
    if |roots| == 0 then Grouping(groups, st)
    else
      var pr := DetectCycle(succ, roots[0], if clearStack then st.(inStack := {}) else st, []);
      GroupFrom(succ, roots[1..], pr.st, if pr.found then groups + [pr.cycle] else groups, clearStack)
  }

  lemma {:induction false} GroupFromFacts(succ: Adjacency, roots: seq<string>, st: Dfs, groups: seq<seq<string>>, clearStack: bool)
    requires Wf(st)
    ensures var r := GroupFrom(succ, roots, st, groups, clearStack);
      && Wf(r.st)
      && st.visited + Elems(roots) <= r.st.visited
      && IsPrefix(st.expanded, r.st.expanded)
      && forall k :: |groups| <= k < |r.groups| ==> |r.groups[k]| > 0 && NoDups(r.groups[k])
    decreases |roots|
  {
    if |roots| > 0 {
      var st0 := if clearStack then st.(inStack := {}) else st;
      assert Wf(st0);
      DetectCycleFacts(succ, roots[0], st0, []);
      var pr := DetectCycle(succ, roots[0], st0, []);
      var groups1 := if pr.found then groups + [pr.cycle] else groups;
      GroupFromFacts(succ, roots[1..], pr.st, groups1, clearStack);
      var r := GroupFrom(succ, roots, st, groups, clearStack);
      assert Elems(roots) == {roots[0]} + Elems(roots[1..]);
      forall k | |groups| <= k < |r.groups|
        ensures |r.groups[k]| > 0 && NoDups(r.groups[k])
      {
        if k == |groups| && pr.found {
          assert r.groups[k] == groups1[k] == pr.cycle;
        }
      }
    }
  }

  /**
   * `groupCycles` as written. Each name's dependency loop is entered at most
   * once over the whole pass (the expansion log has no duplicate), every root
   * ends up visited, and every group is a non-empty set of names.
   */
  function GroupCycles(succ: Adjacency, roots: seq<string>): (r: Grouping)
    ensures NoDups(r.st.expanded) && Elems(r.st.expanded) == r.st.visited
    ensures Elems(roots) <= r.st.visited
    ensures |r.groups| <= |roots|
    ensures forall k :: 0 <= k < |r.groups| ==> |r.groups[k]| > 0 && NoDups(r.groups[k])
  {
    GroupFromFacts(succ, roots, Start, [], false);
    GroupFrom(succ, roots, Start, [], false)
  }

  /** `groupCycles` with `inStack` emptied before each root; the same guarantees hold. */
  function GroupCyclesClean(succ: Adjacency, roots: seq<string>): (r: Grouping)
    ensures NoDups(r.st.expanded) && Elems(r.st.expanded) == r.st.visited
    ensures Elems(roots) <= r.st.visited
    ensures |r.groups| <= |roots|
    ensures forall k :: 0 <= k < |r.groups| ==> |r.groups[k]| > 0 && NoDups(r.groups[k])
  {
    GroupFromFacts(succ, roots, Start, [], true);
    GroupFrom(succ, roots, Start, [], true)
  }

  /** A suffix of a walk is a walk. */
  lemma WalkSuffix(succ: Adjacency, w: seq<string>, m: nat)
    requires m < |w| && IsWalk(succ, w)
    ensures IsWalk(succ, w[m..]) && Elems(w[m..]) <= Elems(w)
  {
    var c := w[m..];
    forall k: nat | k + 1 < |c|
      ensures StepOk(succ, c, k)
    {
      assert StepOk(succ, w, m + k);
      assert c[k] == w[m + k] && c[k + 1] == w[m + k + 1];
    }
  }

  /** A walk that returns to one of its own earlier names contains a closed walk. */
  lemma {:induction false} ClosedSuffix(succ: Adjacency, w: seq<string>) returns (c: seq<string>)
    requires |w| >= 1 && IsWalk(succ, w) && w[|w| - 1] in w[..|w| - 1]
    ensures ClosedWalk(succ, c) && Elems(c) <= Elems(w)
  {
    var m :| 0 <= m < |w| - 1 && w[m] == w[|w| - 1];
    WalkSuffix(succ, w, m);
    c := w[m..];
  }

  /**
   * With `inStack` emptied before each root, every reported group contains a
   * genuine cycle: `ws[k]` is a closed walk inside the `k`-th new group.
   */
  lemma {:induction false} GroupFromCleanFindsCycles(succ: Adjacency, roots: seq<string>, st: Dfs, groups: seq<seq<string>>)
    returns (ws: seq<seq<string>>)
    requires Wf(st)
    ensures var r := GroupFrom(succ, roots, st, groups, true);
      && |ws| == |r.groups| - |groups|
      && forall k :: 0 <= k < |ws| ==> ClosedWalk(succ, ws[k]) && Elems(ws[k]) <= Elems(r.groups[|groups| + k])
    decreases |roots|
  {
    if |roots| == 0 {
      ws := [];
    } else {
      var st0 := st.(inStack := {});
      assert Wf(st0);
      DetectCycleFacts(succ, roots[0], st0, []);
      var pr := DetectCycle(succ, roots[0], st0, []);
      var groups1 := if pr.found then groups + [pr.cycle] else groups;
      var rest := GroupFromCleanFindsCycles(succ, roots[1..], pr.st, groups1);
      var r := GroupFrom(succ, roots, st, groups, true);
      assert r == GroupFrom(succ, roots[1..], pr.st, groups1, true);
      if pr.found {
        var w := DetectCycleWalk(succ, roots[0], st0, []);
        assert Elems(pr.cycle) == Elems(w);
        var c := ClosedSuffix(succ, w);
        ws := [c] + rest;
        assert r.groups[|groups|] == groups1[|groups|] == pr.cycle;
        WalksCons(succ, c, rest, r.groups, |groups|);
      } else {
        ws := rest;
      }
    }
  }

  /** A closed walk inside group `n` put in front of closed walks inside the groups after it. */
  lemma WalksCons(succ: Adjacency, c: seq<string>, rest: seq<seq<string>>, gs: seq<seq<string>>, n: nat)
    requires n < |gs| && ClosedWalk(succ, c) && Elems(c) <= Elems(gs[n])
    requires |rest| == |gs| - (n + 1)
    requires forall k :: 0 <= k < |rest| ==> ClosedWalk(succ, rest[k]) && Elems(rest[k]) <= Elems(gs[n + 1 + k])
    ensures forall k :: 0 <= k < |[c] + rest| ==>
      ClosedWalk(succ, ([c] + rest)[k]) && Elems(([c] + rest)[k]) <= Elems(gs[n + k])
  {
    forall k | 0 < k < |[c] + rest|
      ensures ClosedWalk(succ, ([c] + rest)[k]) && Elems(([c] + rest)[k]) <= Elems(gs[n + k])
    {
      assert ([c] + rest)[k] == rest[k - 1] && n + k == n + 1 + (k - 1);
    }
  }

  /** Every group the corrected pass reports contains a closed walk, `ws[k]` for the `k`-th group. */
  lemma GroupCyclesCleanFindsCycles(succ: Adjacency, roots: seq<string>) returns (ws: seq<seq<string>>)
    ensures var r := GroupCyclesClean(succ, roots);
      && |ws| == |r.groups|
      && forall k :: 0 <= k < |ws| ==> ClosedWalk(succ, ws[k]) && Elems(ws[k]) <= Elems(r.groups[k])
  {
    ws := GroupFromCleanFindsCycles(succ, roots, Start, []);
    assert GroupCyclesClean(succ, roots) == GroupFrom(succ, roots, Start, [], true);
  }
}

/** The three-line call graph `A B`, `B A`, `C A`, and what the grouping pass makes of it. */
module CyclesExample {
  import opened Seqs
  import opened Cycles

  const Sample: Adjacency := map["A" := ["B"], "B" := ["A"], "C" := ["A"]]
  const Roots: seq<string> := ["A", "B", "C"]

  /** The first root `A` closes the cycle `A -> B -> A` and leaves both names on the stack. */
  lemma FirstRoot()
    ensures DetectCycle(Sample, "A", Start, []) == Probe(true, Dfs({"A", "B"}, {"A", "B"}, ["A", "B"]), ["A", "B"])
  {
    var st1 := Dfs({"A"}, {"A"}, ["A"]);
    var st2 := Dfs({"A", "B"}, {"A", "B"}, ["A", "B"]);
    assert Sample["A"] == ["B"] && Sample["B"] == ["A"];
    assert DetectCycle(Sample, "A", st2, []) == Probe(true, st2, ["A"]);
    assert DetectDeps(Sample, ["A"], 0, st2, []) == Probe(true, st2, ["A"]);
    assert Dfs(st1.visited + {"B"}, st1.inStack + {"B"}, st1.expanded + ["B"]) == st2;
    assert DetectCycle(Sample, "B", st1, []) == Probe(true, st2, ["A", "B"]);
    assert DetectDeps(Sample, ["B"], 0, st1, []) == Probe(true, st2, ["A", "B"]);
    assert Insert(["A", "B"], "A") == ["A", "B"];
    assert Start == Dfs({}, {}, []);
    assert Dfs(Start.visited + {"A"}, Start.inStack + {"A"}, Start.expanded + ["A"]) == st1;
  }

  /** As written, the second root `B` is still on the stack and is reported on its own. */
  lemma SecondRootDirty()
    ensures var st2 := Dfs({"A", "B"}, {"A", "B"}, ["A", "B"]);
      DetectCycle(Sample, "B", st2, []) == Probe(true, st2, ["B"])
  {
  }

  /** As written, the third root `C` reaches `A`, still on the stack, and is grouped with it. */
  lemma ThirdRootDirty()
    ensures DetectCycle(Sample, "C", Dfs({"A", "B"}, {"A", "B"}, ["A", "B"]), [])
         == Probe(true, Dfs({"A", "B", "C"}, {"A", "B", "C"}, ["A", "B", "C"]), ["A", "C"])
  {
    var st2 := Dfs({"A", "B"}, {"A", "B"}, ["A", "B"]);
    var st3 := Dfs({"A", "B", "C"}, {"A", "B", "C"}, ["A", "B", "C"]);
    assert Sample["C"] == ["A"];
    assert DetectCycle(Sample, "A", st3, []) == Probe(true, st3, ["A"]);
    assert DetectDeps(Sample, ["A"], 0, st3, []) == Probe(true, st3, ["A"]);
    assert Dfs(st2.visited + {"C"}, st2.inStack + {"C"}, st2.expanded + ["C"]) == st3;
  }

  /**
   * As written, the names left on the stack by the first hit make `B` a group of
   * its own and pull the acyclic `C` into a group with `A`; `{B}` contains no
   * cycle at all.
   */
  lemma DirtyStackGroups()
    ensures GroupCycles(Sample, Roots).groups == [["A", "B"], ["B"], ["A", "C"]]
    ensures forall c :: ClosedWalk(Sample, c) ==> !(Elems(c) <= {"B"})
  {
    FirstRoot();
    SecondRootDirty();
    ThirdRootDirty();
    var st2 := Dfs({"A", "B"}, {"A", "B"}, ["A", "B"]);
    var st3 := Dfs({"A", "B", "C"}, {"A", "B", "C"}, ["A", "B", "C"]);
    var g0 := GroupFrom(Sample, [], st3, [["A", "B"], ["B"], ["A", "C"]], false);
    assert GroupFrom(Sample, ["C"], st2, [["A", "B"], ["B"]], false) == g0;
    assert GroupFrom(Sample, ["B", "C"], st2, [["A", "B"]], false) == g0;
    assert GroupFrom(Sample, Roots, Start, [], false) == g0;
    forall c | ClosedWalk(Sample, c)
      ensures !(Elems(c) <= {"B"})
    {
      assert StepOk(Sample, c, 0);
      assert c[0] in Elems(c) && c[1] in Elems(c);
    }
  }

  /** With `inStack` emptied before each root, the same graph yields the one real cycle. */
  lemma CleanStackGroups()
    ensures GroupCyclesClean(Sample, Roots).groups == [["A", "B"]]
  {
    FirstRoot();
    var st2 := Dfs({"A", "B"}, {}, ["A", "B"]);
    var st3 := Dfs({"A", "B", "C"}, {"C"}, ["A", "B", "C"]);
    var st4 := Dfs({"A", "B", "C"}, {}, ["A", "B", "C"]);
    assert Sample["C"] == ["A"];
    assert DetectCycle(Sample, "B", st2, []) == Probe(false, st2, []);
    assert DetectCycle(Sample, "A", st3, []) == Probe(false, st3, []);
    assert DetectDeps(Sample, ["A"], 0, st3, []) == Probe(false, st3, []);
    assert Dfs(st2.visited + {"C"}, st2.inStack + {"C"}, st2.expanded + ["C"]) == st3;
    assert DetectCycle(Sample, "C", st2, []) == Probe(false, st4, []);
    var g0 := GroupFrom(Sample, [], st4, [["A", "B"]], true);
    assert GroupFrom(Sample, ["C"], st2, [["A", "B"]], true) == g0;
    assert GroupFrom(Sample, ["B", "C"], Dfs({"A", "B"}, {"A", "B"}, ["A", "B"]), [["A", "B"]], true) == g0;
    assert GroupFrom(Sample, Roots, Start, [], true) == g0;
  }
}

=== FILE: dag_scheduler.dfy ===
/**
 * The bookkeeping of the DAG scheduler, run sequentially: building in-degrees
 * and the successor lists from a subtask list, seeding the ready queue, and
 * draining it batch by batch while completions lower the in-degrees of the
 * children.
 *
 * A subtask's work is opaque and modelled as doing nothing; the threads of a
 * batch complete one after another, in batch order (completions commute, see
 * `OnTaskCompleteCommutes`). The iteration order of the `indegree` hash map is
 * the parameter `keyOrder`.
 */
module DagScheduler {
  import opened Seqs

  /** A subtask; its `work` callable is not modelled. */
  datatype SubTask = SubTask(id: int, dependencies: seq<int>)

  /** The scheduler's fields. `completed` is the atomic counter. */
  datatype Dag = Dag(subtasks: map<int, SubTask>, indegree: map<int, int>, graph: map<int, seq<int>>,
                     completed: int, total: int)

  /** `graph[id]`: no entry reads as an empty list. */
  function Children(graph: map<int, seq<int>>, id: int): seq<int> {
    if id in graph then graph[id] else []
  }

  /** `indegree[id]`: no entry reads as 0. */
  function IndegreeOf(indegree: map<int, int>, id: int): int {
    if id in indegree then indegree[id] else 0
  }

  /** `n` copies of `x`. */
  function Repeat(x: int, n: nat): (r: seq<int>)
    ensures |r| == n && forall i :: 0 <= i < n ==> r[i] == x
    decreases n
  {
    if n == 0 then [] else [x] + Repeat(x, n - 1)
  }

  lemma {:induction false} RepeatCount(x: int, n: nat, y: int)
    ensures multiset(Repeat(x, n))[y] == if y == x then n else 0
    decreases n
  {
    if n > 0 {
      RepeatCount(x, n - 1, y);
      assert Repeat(x, n) == [x] + Repeat(x, n - 1);
    }
  }

  /** The ids a task list mentions. */
  function Ids(taskList: seq<SubTask>): set<int> {
    set i | 0 <= i < |taskList| :: taskList[i].id
  }

  /** The ids of a task list, in list order. */
  function IdSeq(taskList: seq<SubTask>): (r: seq<int>)
    ensures |r| == |taskList| && forall i :: 0 <= i < |r| ==> r[i] == taskList[i].id
    ensures Elems(r) == Ids(taskList)
  {
    seq(|taskList|, i requires 0 <= i < |taskList| => taskList[i].id)
  }

  // ---------------------------------------------------------------------------
  // Construction

  /** The inner loop of the constructor: `id` is appended to `graph[dep]` once per listed dependency. */
  function AddEdges(graph: map<int, seq<int>>, deps: seq<int>, id: int): (r: map<int, seq<int>>)
    ensures r.Keys == graph.Keys + Elems(deps)
    ensures forall dep :: Children(r, dep) == Children(graph, dep) + Repeat(id, multiset(deps)[dep])
    decreases |deps|
  {
    if |deps| == 0 then graph
    else
      var g := graph[deps[0] := Children(graph, deps[0]) + [id]];
      var r := AddEdges(g, deps[1..], id);
      AddEdgesFront(graph, deps, id, r);
      r
  }

  lemma AddEdgesFront(graph: map<int, seq<int>>, deps: seq<int>, id: int, r: map<int, seq<int>>)
    requires |deps| > 0
    requires var g := graph[deps[0] := Children(graph, deps[0]) + [id]];
      forall dep :: Children(r, dep) == Children(g, dep) + Repeat(id, multiset(deps[1..])[dep])
    ensures forall dep :: Children(r, dep) == Children(graph, dep) + Repeat(id, multiset(deps)[dep])
  {
    forall dep
      ensures Children(r, dep) == Children(graph, dep) + Repeat(id, multiset(deps)[dep])
    {
      AddEdgesAt(graph, deps, id, Children(r, dep), dep);
    }
  }

  lemma AddEdgesAt(graph: map<int, seq<int>>, deps: seq<int>, id: int, rd: seq<int>, dep: int)
    requires |deps| > 0
    requires rd == Children(graph[deps[0] := Children(graph, deps[0]) + [id]], dep) + Repeat(id, multiset(deps[1..])[dep])
    ensures rd == Children(graph, dep) + Repeat(id, multiset(deps)[dep])
  {
    var m := multiset(deps[1..])[dep];
    assert deps == [deps[0]] + deps[1..];
    assert multiset(deps)[dep] == (if dep == deps[0] then 1 else 0) + m;
    if dep == deps[0] {
      assert Repeat(id, m + 1) == [id] + Repeat(id, m);
      assert (Children(graph, dep) + [id]) + Repeat(id, m) == Children(graph, dep) + ([id] + Repeat(id, m));
    }
  }

  /** One iteration of the constructor's loop over the task list. */
  function AddSubTask(d: Dag, task: SubTask): Dag {
    d.(subtasks := d.subtasks[task.id := task],
       indegree := d.indegree[task.id := |task.dependencies|],
       graph := AddEdges(d.graph, task.dependencies, task.id))
  }

  /**
   * One iteration files the task under its id, overwriting an earlier task with
   * the same id, and sets its in-degree to the number of dependencies it lists;
   * the other entries, `completed` and `total` stay.
   */
  lemma AddSubTaskStores(d: Dag, task: SubTask)
    ensures var r := AddSubTask(d, task);
      && r.subtasks.Keys == d.subtasks.Keys + {task.id} && r.subtasks[task.id] == task
      && r.indegree.Keys == d.indegree.Keys + {task.id} && r.indegree[task.id] == |task.dependencies|
      && (forall x :: x in d.subtasks && x != task.id ==> r.subtasks[x] == d.subtasks[x])
      && (forall x :: x in d.indegree && x != task.id ==> r.indegree[x] == d.indegree[x])
      && r.completed == d.completed && r.total == d.total
  {
    var r := AddSubTask(d, task);
    assert r.subtasks == d.subtasks[task.id := task];
    assert r.indegree == d.indegree[task.id := |task.dependencies|];
  }

  /** One iteration appends the task's id to `graph[dep]` once per listing of `dep`, and nowhere else. */
  lemma AddSubTaskEdges(d: Dag, task: SubTask)
    ensures forall dep :: Children(AddSubTask(d, task).graph, dep) == Children(d.graph, dep) + Repeat(task.id, multiset(task.dependencies)[dep])
  {
    assert AddSubTask(d, task).graph == AddEdges(d.graph, task.dependencies, task.id);
  }

  /** Position of the last task with id `x`, or -1: the entry a repeated id leaves behind. */
  function LastIndex(taskList: seq<SubTask>, x: int): (i: int)
    ensures -1 <= i < |taskList|
    ensures i == -1 <==> x !in Ids(taskList)
    ensures i >= 0 ==> taskList[i].id == x && forall j :: i < j < |taskList| ==> taskList[j].id != x
    decreases |taskList|
  {
    if |taskList| == 0 then -1
    else
      var n := |taskList| - 1;
      if taskList[n].id == x then n
      else
        var front := taskList[..n];
        assert Ids(taskList) == Ids(front) + {taskList[n].id} by {
          assert forall i :: 0 <= i < n ==> taskList[i] == front[i];
        }
        LastIndex(front, x)
  }

  /**
   * The successor list `graph[dep]` a task list builds, defined over the whole
   * list: each task's id, once per occurrence of `dep` among its dependencies,
   * in list order.
   */
  function EdgesInto(taskList: seq<SubTask>, dep: int): seq<int>
    decreases |taskList|
  {
    if |taskList| == 0 then []
    else
      var n := |taskList| - 1;
      EdgesInto(taskList[..n], dep) + Repeat(taskList[n].id, multiset(taskList[n].dependencies)[dep])
  }

  /**
   * The constructor's loop over a task list, with `total` already set. Ids
   * present map to the last task with that id and its dependency count; the
   * successor lists are `EdgesInto`.
   */
  function Load(total: int, taskList: seq<SubTask>): (r: Dag)
    ensures r.total == total && r.completed == 0
    ensures r.subtasks.Keys == Ids(taskList) && r.indegree.Keys == Ids(taskList)
    ensures forall x :: x in Ids(taskList) ==>
      var t := taskList[LastIndex(taskList, x)];
      r.subtasks[x] == t && r.indegree[x] == |t.dependencies|
    ensures forall dep :: Children(r.graph, dep) == EdgesInto(taskList, dep)
    decreases |taskList|
  {
    if |taskList| == 0 then Dag(map[], map[], map[], 0, total)
    else
      var n := |taskList| - 1;
      var prev := Load(total, taskList[..n]);
      LoadStep(total, taskList, prev);
      AddSubTask(prev, taskList[n])
  }

  /** One pass of the constructor's loop keeps `Load`'s description, from the tasks before the last to the whole list. */
  lemma LoadStep(total: int, taskList: seq<SubTask>, prev: Dag)
    requires |taskList| > 0
    requires var front := taskList[..|taskList| - 1];
      && prev.total == total && prev.completed == 0
      && prev.subtasks.Keys == Ids(front) && prev.indegree.Keys == Ids(front)
      && (forall x :: x in Ids(front) ==>
            var t := front[LastIndex(front, x)];
            prev.subtasks[x] == t && prev.indegree[x] == |t.dependencies|)
      && forall dep :: Children(prev.graph, dep) == EdgesInto(front, dep)
    ensures var r := AddSubTask(prev, taskList[|taskList| - 1]);
      && r.total == total && r.completed == 0
      && r.subtasks.Keys == Ids(taskList) && r.indegree.Keys == Ids(taskList)
      && (forall x :: x in Ids(taskList) ==>
            var t := taskList[LastIndex(taskList, x)];
            r.subtasks[x] == t && r.indegree[x] == |t.dependencies|)
      && forall dep :: Children(r.graph, dep) == EdgesInto(taskList, dep)
  {
    EntriesStep(taskList, prev.subtasks, prev.indegree);
    EdgesIntoStep(taskList, prev.graph);
  }

  /** The last task's entries overwrite any earlier ones with its id and leave the other ids' entries alone. */
  lemma EntriesStep(taskList: seq<SubTask>, subtasks: map<int, SubTask>, indegree: map<int, int>)
    requires |taskList| > 0
    requires var front := taskList[..|taskList| - 1];
      && subtasks.Keys == Ids(front) && indegree.Keys == Ids(front)
      && forall x :: x in Ids(front) ==>
           var t := front[LastIndex(front, x)];
           subtasks[x] == t && indegree[x] == |t.dependencies|
    ensures var last := taskList[|taskList| - 1];
      var s := subtasks[last.id := last];
      var g := indegree[last.id := |last.dependencies|];
      && s.Keys == Ids(taskList) && g.Keys == Ids(taskList)
      && forall x :: x in Ids(taskList) ==>
           var t := taskList[LastIndex(taskList, x)];
           s[x] == t && g[x] == |t.dependencies|
  {
    var last := taskList[|taskList| - 1];
    assert Ids(taskList) == Ids(taskList[..|taskList| - 1]) + {last.id} by {
      IdsSplit(taskList);
    }
    forall x | x in Ids(taskList)
      ensures var t := taskList[LastIndex(taskList, x)];
        subtasks[last.id := last][x] == t && indegree[last.id := |last.dependencies|][x] == |t.dependencies|
    {
      if x != last.id {
        EntryKept(taskList, subtasks, indegree, x);
      }
    }
  }

  lemma EntryKept(taskList: seq<SubTask>, subtasks: map<int, SubTask>, indegree: map<int, int>, x: int)
    requires |taskList| > 0 && x in Ids(taskList) && x != taskList[|taskList| - 1].id
    requires var front := taskList[..|taskList| - 1];
      forall x :: x in Ids(front) ==>
        var t := front[LastIndex(front, x)];
        x in subtasks && x in indegree && subtasks[x] == t && indegree[x] == |t.dependencies|
    ensures var t := taskList[LastIndex(taskList, x)];
      x in subtasks && x in indegree && subtasks[x] == t && indegree[x] == |t.dependencies|
  {
    LastIndexSplit(taskList, x);
  }

  /** The last task's edges extend the successor lists of the tasks before it to those of the whole list. */
  lemma EdgesIntoStep(taskList: seq<SubTask>, graph: map<int, seq<int>>)
    requires |taskList| > 0
    requires forall dep :: Children(graph, dep) == EdgesInto(taskList[..|taskList| - 1], dep)
    ensures var t := taskList[|taskList| - 1];
      forall dep :: Children(AddEdges(graph, t.dependencies, t.id), dep) == EdgesInto(taskList, dep)
  {
  }

  /** Dropping the last task leaves every other id's kept entry where it was. */
  lemma LastIndexSplit(taskList: seq<SubTask>, x: int)
    requires |taskList| > 0
    requires x != taskList[|taskList| - 1].id && x in Ids(taskList)
    ensures var n := |taskList| - 1; var j := LastIndex(taskList[..n], x);
      && x in Ids(taskList[..n]) && 0 <= j < n && LastIndex(taskList, x) == j && taskList[j] == taskList[..n][j]
  {
    IdsSplit(taskList);
  }

  /** The `DAGScheduler` constructor: `total` counts every list entry, repeated ids included. */
  function Construct(taskList: seq<SubTask>): (d: Dag)
    ensures d.total == |taskList| && d.completed == 0
    ensures d.subtasks.Keys == Ids(taskList) && d.indegree.Keys == Ids(taskList)
    ensures forall x :: x in Ids(taskList) ==>
      var t := taskList[LastIndex(taskList, x)];
      d.subtasks[x] == t && d.indegree[x] == |t.dependencies|
    ensures forall dep :: Children(d.graph, dep) == EdgesInto(taskList, dep)
  {
    Load(|taskList|, taskList)
  }

  /** `total` counts repeated ids twice, so it exceeds the number of stored subtasks. */
  lemma TotalCountsRepeats(taskList: seq<SubTask>)
    ensures |Construct(taskList).subtasks| <= Construct(taskList).total
    ensures (exists i, j :: 0 <= i < j < |taskList| && taskList[i].id == taskList[j].id) ==>
      |Construct(taskList).subtasks| < Construct(taskList).total
  {
    var d := Construct(taskList);
    assert |d.subtasks| == |Ids(taskList)|;
    IdsCard(taskList);
  }

  lemma IdsCard(taskList: seq<SubTask>)
    ensures |Ids(taskList)| <= |taskList|
    ensures (exists i, j :: 0 <= i < j < |taskList| && taskList[i].id == taskList[j].id) ==>
      |Ids(taskList)| < |taskList|
  {
    var ids := IdSeq(taskList);
    ElemsCard(ids);
    if exists i, j :: 0 <= i < j < |taskList| && taskList[i].id == taskList[j].id {
      var i, j :| 0 <= i < j < |taskList| && taskList[i].id == taskList[j].id;
      assert ids[i] == ids[j];
      DupsCard(ids, i, j);
    }
  }

  // ---------------------------------------------------------------------------
  // Seeding the ready queue

  /** The ids of `keyOrder` whose in-degree is 0, in that order. */
  function ZeroIn(indegree: map<int, int>, keyOrder: seq<int>): (ready: seq<int>)
    ensures forall x :: x in ready <==> x in keyOrder && x in indegree && indegree[x] == 0
    ensures NoDups(keyOrder) ==> NoDups(ready)
    decreases |keyOrder|
  {
    if |keyOrder| == 0 then []
    else
      var rest := ZeroIn(indegree, keyOrder[1..]);
      assert forall x :: x in keyOrder <==> x == keyOrder[0] || x in keyOrder[1..];
      if keyOrder[0] in indegree && indegree[keyOrder[0]] == 0 then
        assert NoDups(keyOrder) ==> keyOrder[0] !in keyOrder[1..] && NoDups(keyOrder[1..]);
        [keyOrder[0]] + rest
      else rest
  }

  /**
   * The seeded ids keep the iteration order: the `i`-th of them sits at
   * position `pos[i]` of `keyOrder`, and the positions strictly increase.
   */
  lemma {:induction false} ZeroInOrder(indegree: map<int, int>, keyOrder: seq<int>) returns (pos: seq<nat>)
    ensures PositionsIn(pos, keyOrder, ZeroIn(indegree, keyOrder))
    decreases |keyOrder|
  {
    if |keyOrder| == 0 {
      pos := [];
    } else {
      var rest := ZeroIn(indegree, keyOrder[1..]);
      var tail := ZeroInOrder(indegree, keyOrder[1..]);
      PositionsCons(tail, keyOrder, rest);
      if keyOrder[0] in indegree && indegree[keyOrder[0]] == 0 {
        assert ZeroIn(indegree, keyOrder) == [keyOrder[0]] + rest;
        pos := [0] + Shift(tail);
      } else {
        assert ZeroIn(indegree, keyOrder) == rest;
        pos := Shift(tail);
      }
    }
  }

  /**
   * The first loop of `execute`: walking the in-degree map in its iteration
   * order `keyOrder` (each key once), the ready queue receives exactly the ids
   * of in-degree 0, each once.
   */
  function InitialReady(d: Dag, keyOrder: seq<int>): (ready: seq<int>)
    requires NoDups(keyOrder) && Elems(keyOrder) == d.indegree.Keys
    ensures NoDups(ready)
    ensures Elems(ready) == set x | x in d.indegree && d.indegree[x] == 0
  {
    ZeroIn(d.indegree, keyOrder)
  }

  // ---------------------------------------------------------------------------
  // Completion

  /** The in-degrees after one completion, and the children whose in-degree reached 0, in the order that happened. */
  datatype Released = Released(indegree: map<int, int>, zeroed: seq<int>)

  /**
   * The loop of `onTaskComplete`: each listed child loses one from its in-degree
   * per edge (a child with no entry starts from 0). A child is reported when its
   * count reaches exactly 0, which happens once at most, and only when the edges
   * took it from a positive value down to 0 or below.
   */
  function Release(indegree: map<int, int>, children: seq<int>): (r: Released)
    ensures r.indegree.Keys == indegree.Keys + Elems(children)
    ensures forall x :: IndegreeOf(r.indegree, x) == IndegreeOf(indegree, x) - multiset(children)[x]
    ensures forall x :: x in r.zeroed <==> 1 <= IndegreeOf(indegree, x) <= multiset(children)[x]
    ensures NoDups(r.zeroed)
    decreases |children|
  {
    if |children| == 0 then Released(indegree, [])
    else
      var c := children[0];
      var m := indegree[c := IndegreeOf(indegree, c) - 1];
      var rest := Release(m, children[1..]);
      var hit := if m[c] == 0 then [c] else [];
      ReleaseFront(indegree, children, rest);
      Released(rest.indegree, hit + rest.zeroed)
  }

  /** What `Release` promises, as one predicate for the step lemma below. */
  ghost predicate Releases(indegree: map<int, int>, children: seq<int>, r: Released) {
    && r.indegree.Keys == indegree.Keys + Elems(children)
    && (forall x :: IndegreeOf(r.indegree, x) == IndegreeOf(indegree, x) - multiset(children)[x])
    && (forall x :: x in r.zeroed <==> 1 <= IndegreeOf(indegree, x) <= multiset(children)[x])
    && NoDups(r.zeroed)
  }

  lemma ReleaseFront(indegree: map<int, int>, children: seq<int>, rest: Released)
    requires |children| > 0
    requires var c := children[0];
      Releases(indegree[c := IndegreeOf(indegree, c) - 1], children[1..], rest)
    ensures var c := children[0];
      var hit := if IndegreeOf(indegree, c) - 1 == 0 then [c] else [];
      Releases(indegree, children, Released(rest.indegree, hit + rest.zeroed))
  {
    var c := children[0];
    var m := indegree[c := IndegreeOf(indegree, c) - 1];
    var hit := if IndegreeOf(indegree, c) - 1 == 0 then [c] else [];
    assert children == [c] + children[1..];
    assert Elems(children) == {c} + Elems(children[1..]);
    forall x
      ensures multiset(children)[x] == (if x == c then 1 else 0) + multiset(children[1..])[x]
      ensures IndegreeOf(m, x) == IndegreeOf(indegree, x) - (if x == c then 1 else 0)
    {
    }
    forall x
      ensures x in hit + rest.zeroed <==> 1 <= IndegreeOf(indegree, x) <= multiset(children)[x]
    {
      assert x in hit + rest.zeroed <==> x in hit || x in rest.zeroed;
    }
    if hit != [] {
      assert c !in rest.zeroed;
    }
    NoDupsAppend(hit, rest.zeroed);
  }

  /**
   * `onTaskComplete` as written: each child of `id` loses one from its
   * in-degree per edge, `completed` goes up by one, and nothing else changes.
   * Reaching 0 only wakes waiters, which changes no state.
   */
  function OnTaskComplete(d: Dag, id: int): (r: Dag)
    ensures r == d.(indegree := r.indegree, completed := d.completed + 1)
    ensures r.indegree.Keys == d.indegree.Keys + Elems(Children(d.graph, id))
    ensures forall x :: IndegreeOf(r.indegree, x) == IndegreeOf(d.indegree, x) - multiset(Children(d.graph, id))[x]
  {
    d.(indegree := Release(d.indegree, Children(d.graph, id)).indegree, completed := d.completed + 1)
  }

  /** Completions commute, so the order in which a batch's threads finish does not matter. */
  lemma OnTaskCompleteCommutes(d: Dag, a: int, b: int)
    ensures OnTaskComplete(OnTaskComplete(d, a), b) == OnTaskComplete(OnTaskComplete(d, b), a)
  {
    var da := OnTaskComplete(d, a);
    var db := OnTaskComplete(d, b);
    assert da.graph == d.graph && db.graph == d.graph;
    ReleaseCommutes(d.indegree, Children(d.graph, a), Children(d.graph, b));
  }

  /** Releasing two children lists one after the other gives the same counts in either order. */
  lemma ReleaseCommutes(m: map<int, int>, ca: seq<int>, cb: seq<int>)
    ensures Release(Release(m, ca).indegree, cb).indegree == Release(Release(m, cb).indegree, ca).indegree
  {
    IndegreesEqual(Release(Release(m, ca).indegree, cb).indegree, Release(Release(m, cb).indegree, ca).indegree);
  }

  /** Two in-degree maps with the same keys and the same counts are the same map. */
  lemma IndegreesEqual(m1: map<int, int>, m2: map<int, int>)
    requires m1.Keys == m2.Keys && forall x :: IndegreeOf(m1, x) == IndegreeOf(m2, x)
    ensures m1 == m2
  {
    forall x | x in m1
      ensures m1[x] == m2[x]
    {
      assert IndegreeOf(m1, x) == IndegreeOf(m2, x);
    }
  }

  // ---------------------------------------------------------------------------
  // Executing, as written

  /** `execute`'s state: the scheduler, the local ready queue, and the finished subtasks in completion order. */
  datatype Exec = Exec(dag: Dag, ready: seq<int>, finished: seq<int>)

  /** `execute` on entry, after seeding. */
  function Start(d: Dag, keyOrder: seq<int>): (e: Exec)
    requires NoDups(keyOrder) && Elems(keyOrder) == d.indegree.Keys
    ensures e.dag == d && e.finished == []
    ensures Elems(e.ready) == set x | x in d.indegree && d.indegree[x] == 0
  {
    Exec(d, InitialReady(d, keyOrder), [])
  }

  /** One thread of a batch: subtask `id` finishes and reports its completion. */
  function Complete(e: Exec, id: int): (r: Exec)
    ensures r.dag == OnTaskComplete(e.dag, id) && r.ready == e.ready && r.finished == e.finished + [id]
  {
    Exec(OnTaskComplete(e.dag, id), e.ready, e.finished + [id])
  }

  /** The threads of a batch, finishing in batch order. */
  function RunBatch(e: Exec, batch: seq<int>): (r: Exec)
    ensures r.ready == e.ready && r.finished == e.finished + batch
    ensures r.dag == e.dag.(indegree := r.dag.indegree, completed := e.dag.completed + |batch|)
    decreases |batch|
  {
    if |batch| == 0 then e
    else
      var r := RunBatch(Complete(e, batch[0]), batch[1..]);
      ConsAppend(e.finished, batch);
      r
  }

  /**
   * One pass of the `while (completed < total)` loop: the ready queue is
   * drained completely into the batch, and the batch runs. Only the completions
   * touch the scheduler, so nothing refills the queue.
   */
  function Round(e: Exec): (r: Exec)
    ensures r.ready == []
    ensures r.finished == e.finished + e.ready
    ensures r.dag.completed == e.dag.completed + |e.ready| && r.dag.total == e.dag.total
  {
    RunBatch(e.(ready := []), e.ready)
  }

  /** `execute`'s main loop, for at most `fuel` passes. */
  function Execute(e: Exec, fuel: nat): (r: Exec)
    ensures r.dag.total == e.dag.total
    ensures |r.finished| >= |e.finished| && r.finished[..|e.finished|] == e.finished
    ensures r.dag.completed - e.dag.completed == |r.finished| - |e.finished|
    decreases fuel
  {
    if fuel == 0 || e.dag.completed >= e.dag.total then e else Execute(Round(e), fuel - 1)
  }

  /** Once the queue is empty and work remains, a pass changes nothing, forever. */
  lemma {:induction false} IdleForever(e: Exec, fuel: nat)
    requires e.ready == [] && e.dag.completed < e.dag.total
    ensures Execute(e, fuel) == e
    decreases fuel
  {
    if fuel > 0 {
      assert Round(e) == RunBatch(e, []) == e;
      IdleForever(e, fuel - 1);
    }
  }

  /**
   * As written, only the subtasks ready at the start ever run: when some
   * subtask lists a dependency, every pass after the first has an empty batch
   * and `completed` stays below `total` however long the loop spins.
   */
  lemma AsWrittenStalls(taskList: seq<SubTask>, keyOrder: seq<int>, i: nat, fuel: nat)
    requires i < |taskList| && |taskList[i].dependencies| > 0
    requires NoDups(keyOrder) && Elems(keyOrder) == Construct(taskList).indegree.Keys
    requires fuel >= 1
    ensures var s := Start(Construct(taskList), keyOrder);
      var e := Execute(s, fuel);
      && e.finished == s.ready
      && e.ready == []
      && e.dag.completed == |s.ready| < e.dag.total
  {
    var d := Construct(taskList);
    var s := Start(d, keyOrder);
    ReadyBelowTotal(taskList, keyOrder, i);
    assert s.dag.completed < s.dag.total;
    var e1 := Round(s);
    assert Execute(s, fuel) == Execute(e1, fuel - 1);
    IdleForever(e1, fuel - 1);
  }

  /** Fewer subtasks start out ready than `total` counts, once any subtask has a dependency. */
  lemma ReadyBelowTotal(taskList: seq<SubTask>, keyOrder: seq<int>, i: nat)
    requires i < |taskList| && |taskList[i].dependencies| > 0
    requires NoDups(keyOrder) && Elems(keyOrder) == Construct(taskList).indegree.Keys
    ensures |Start(Construct(taskList), keyOrder).ready| < |taskList|
  {
    var d := Construct(taskList);
    var ready := Start(d, keyOrder).ready;
    NoDupsCard(ready);
    IdsCard(taskList);
    var x := taskList[i].id;
    var j := LastIndexFrom(taskList, i);
    assert d.indegree[x] == |taskList[j].dependencies|;
    if |taskList[j].dependencies| == 0 {
      assert i < j && taskList[i].id == taskList[j].id;
    }
    ZeroBelow(d.indegree, x, |taskList|);
  }

  /** The entry kept for the id at position `i` is at `i` or after it. */
  lemma LastIndexFrom(taskList: seq<SubTask>, i: nat) returns (j: nat)
    requires i < |taskList|
    ensures j == LastIndex(taskList, taskList[i].id) && i <= j < |taskList|
    ensures taskList[i].id in Ids(taskList) && taskList[j].id == taskList[i].id
  {
    assert taskList[i].id in Ids(taskList);
    j := LastIndex(taskList, taskList[i].id);
  }

  lemma ZeroBelow(indegree: map<int, int>, x: int, n: int)
    requires x in indegree && |indegree.Keys| <= n
    requires indegree[x] != 0 || |indegree.Keys| < n
    ensures |set y | y in indegree && indegree[y] == 0| < n
  {
    var zero := set y | y in indegree && indegree[y] == 0;
    SubsetCard(zero, indegree.Keys);
    if indegree[x] != 0 {
      SubsetCard(zero, indegree.Keys - {x});
    }
  }

  // ---------------------------------------------------------------------------
  // Executing, corrected: a child whose in-degree reaches 0 joins the ready queue

  /**
   * `onTaskComplete` with the missing push: the same update of the scheduler,
   * and every child this completion takes from a positive in-degree to 0 is
   * appended to the ready queue, once, in the order it was released.
   */
  function CompleteFixed(e: Exec, id: int): (r: Exec)
    ensures r.dag == OnTaskComplete(e.dag, id) && r.finished == e.finished + [id]
    ensures IsPrefix(e.ready, r.ready)
    ensures forall x :: x in r.ready[|e.ready|..] <==>
      1 <= IndegreeOf(e.dag.indegree, x) <= multiset(Children(e.dag.graph, id))[x]
    ensures NoDups(r.ready[|e.ready|..])
  {
    var rel := Release(e.dag.indegree, Children(e.dag.graph, id));
    var r := Exec(e.dag.(indegree := rel.indegree, completed := e.dag.completed + 1), e.ready + rel.zeroed, e.finished + [id]);
    assert r.ready[|e.ready|..] == rel.zeroed;
    r
  }

  /** The threads of a batch with the corrected completion, finishing in batch order. */
  function RunBatchFixed(e: Exec, batch: seq<int>): (r: Exec)
    ensures r.finished == e.finished + batch
    ensures r.dag.completed == e.dag.completed + |batch| && r.dag.total == e.dag.total
    decreases |batch|
  {
    if |batch| == 0 then e
    else
      ConsAppend(e.finished, batch);
      RunBatchFixed(CompleteFixed(e, batch[0]), batch[1..])
  }

  /** One pass of the loop with the corrected completion. */
  function RoundFixed(e: Exec): (r: Exec)
    ensures r.finished == e.finished + e.ready
    ensures r.dag.completed == e.dag.completed + |e.ready| && r.dag.total == e.dag.total
  {
    RunBatchFixed(e.(ready := []), e.ready)
  }

  /** The main loop with the corrected completion, for at most `fuel` passes. */
  function ExecuteFixed(e: Exec, fuel: nat): (r: Exec)
    ensures r.dag.total == e.dag.total
    ensures |r.finished| >= |e.finished| && r.finished[..|e.finished|] == e.finished
    ensures r.dag.completed - e.dag.completed == |r.finished| - |e.finished|
    decreases fuel
  {
    if fuel == 0 || e.dag.completed >= e.dag.total then e else ExecuteFixed(RoundFixed(e), fuel - 1)
  }

  // ---------------------------------------------------------------------------
  // Why the corrected loop finishes every subtask

  /** How many entries of `deps` are not yet finished: what the in-degree should read. */
  function Missing(deps: seq<int>, done: set<int>): nat
    decreases |deps|
  {
    if |deps| == 0 then 0 else (if deps[0] in done then 0 else 1) + Missing(deps[1..], done)
  }

  lemma {:induction false} MissingZero(deps: seq<int>, done: set<int>)
    ensures Missing(deps, done) == 0 <==> forall y :: y in deps ==> y in done
    decreases |deps|
  {
    if |deps| > 0 {
      MissingZero(deps[1..], done);
      assert forall y :: y in deps <==> y == deps[0] || y in deps[1..];
    }
  }

  lemma {:induction false} MissingAdd(deps: seq<int>, done: set<int>, b: int)
    requires b !in done
    ensures Missing(deps, done + {b}) + multiset(deps)[b] == Missing(deps, done)
    decreases |deps|
  {
    if |deps| > 0 {
      MissingAdd(deps[1..], done, b);
      assert deps == [deps[0]] + deps[1..];
      assert multiset(deps)[b] == (if deps[0] == b then 1 else 0) + multiset(deps[1..])[b];
    }
  }

  lemma {:induction false} MissingNone(deps: seq<int>)
    ensures Missing(deps, {}) == |deps|
    decreases |deps|
  {
    if |deps| > 0 {
      MissingNone(deps[1..]);
    }
  }

  /**
   * What the constructor builds from a list with distinct ids: one entry per
   * id, in-degree = number of listed dependencies, `total` = number of
   * subtasks, and `graph[b]` lists `x` once per occurrence of `b` among `x`'s
   * dependencies.
   */
  ghost predicate Shaped(d: Dag) {
    && d.indegree.Keys == d.subtasks.Keys
    && d.total == |d.subtasks.Keys| && d.completed == 0
    && (forall x :: x in d.subtasks ==> d.indegree[x] == |d.subtasks[x].dependencies|)
    && (forall b, x :: multiset(Children(d.graph, b))[x] ==
          if x in d.subtasks then multiset(d.subtasks[x].dependencies)[b] else 0)
  }

  /** Every dependency is a subtask of lower rank: the graph is closed and acyclic. */
  ghost predicate Ranked(d: Dag, rank: map<int, nat>) {
    forall x :: x in d.subtasks ==>
      (x in rank && forall y :: y in d.subtasks[x].dependencies ==> y in d.subtasks && y in rank && rank[y] < rank[x])
  }

  /** The unfinished subtasks all of whose dependencies have finished. */
  ghost function ReadySet(d: Dag, done: set<int>): set<int> {
    set x | x in d.subtasks && x !in done && Missing(d.subtasks[x].dependencies, done) == 0
  }

  /**
   * The loop invariant of the corrected executor, in the middle of a batch
   * whose unstarted part is `rest`: the scheduler is the constructed one with
   * in-degrees counting unfinished dependencies and `completed` counting
   * finished subtasks; every subtask finished once and after its
   * dependencies; and the ready queue together with `rest` holds each ready
   * subtask exactly once.
   */
  ghost predicate Progressing(d: Dag, e: Exec, rest: seq<int>) {
    Counts(d, e) && Queued(d, e, rest)
  }

  /** The bookkeeping half of `Progressing`. */
  ghost predicate Counts(d: Dag, e: Exec) {
    var done := Elems(e.finished);
    && e.dag == d.(indegree := e.dag.indegree, completed := |e.finished|)
    && e.dag.indegree.Keys == d.subtasks.Keys
    && (forall x :: x in d.subtasks ==> e.dag.indegree[x] == Missing(d.subtasks[x].dependencies, done))
    && NoDups(e.finished) && done <= d.subtasks.Keys
    && (forall i :: 0 <= i < |e.finished| && e.finished[i] in d.subtasks ==>
          Elems(d.subtasks[e.finished[i]].dependencies) <= Elems(e.finished[..i]))
  }

  /** The queue half of `Progressing`. */
  ghost predicate Queued(d: Dag, e: Exec, rest: seq<int>) {
    && NoDups(e.ready) && NoDups(rest) && Elems(e.ready) !! Elems(rest)
    && Elems(e.ready) + Elems(rest) == ReadySet(d, Elems(e.finished))
  }

  /** One corrected completion of the batch's next subtask keeps the invariant. */
  lemma CompleteFixedKeeps(d: Dag, e: Exec, rest: seq<int>)
    requires Shaped(d) && Progressing(d, e, rest) && |rest| > 0
    ensures Progressing(d, CompleteFixed(e, rest[0]), rest[1..])
  {
    var b := rest[0];
    var r := CompleteFixed(e, b);
    assert Counts(d, r) by {
      var done := Elems(e.finished);
      assert b in Elems(rest);
      assert b in ReadySet(d, done);
      MissingZero(d.subtasks[b].dependencies, done);
      CompleteIndegrees(d, e, b);
      CompleteFinished(d, e, b);
    }
    CompleteReady(d, e, rest);
  }

  lemma CompleteIndegrees(d: Dag, e: Exec, b: int)
    requires Shaped(d) && Counts(d, e) && b in d.subtasks && b !in e.finished
    ensures var r := CompleteFixed(e, b);
      && r.dag == d.(indegree := r.dag.indegree, completed := |r.finished|)
      && r.dag.indegree.Keys == d.subtasks.Keys
      && forall x :: x in d.subtasks ==> r.dag.indegree[x] == Missing(d.subtasks[x].dependencies, Elems(r.finished))
  {
    var done := Elems(e.finished);
    var r := CompleteFixed(e, b);
    assert Elems(r.finished) == done + {b} by {
      ElemsSnoc(e.finished, b);
    }
    assert r.dag.indegree.Keys == d.subtasks.Keys by {
      ChildrenAreSubtasks(d, b);
    }
    IndegreesAfter(d, e.dag, b, done);
  }

  /** Finishing `b` takes each in-degree from the count of unfinished dependencies to the count without `b`. */
  lemma IndegreesAfter(d: Dag, ed: Dag, b: int, done: set<int>)
    requires b !in done && ed.graph == d.graph
    requires forall x :: x in d.subtasks ==> x in ed.indegree && ed.indegree[x] == Missing(d.subtasks[x].dependencies, done)
    requires forall x :: x in d.subtasks ==> multiset(Children(d.graph, b))[x] == multiset(d.subtasks[x].dependencies)[b]
    ensures forall x :: x in d.subtasks ==>
      IndegreeOf(OnTaskComplete(ed, b).indegree, x) == Missing(d.subtasks[x].dependencies, done + {b})
  {
    forall x | x in d.subtasks
      ensures IndegreeOf(OnTaskComplete(ed, b).indegree, x) == Missing(d.subtasks[x].dependencies, done + {b})
    {
      MissingAdd(d.subtasks[x].dependencies, done, b);
    }
  }

  /** Every child listed for `b` is a stored subtask. */
  lemma ChildrenAreSubtasks(d: Dag, b: int)
    requires Shaped(d)
    ensures Elems(Children(d.graph, b)) <= d.subtasks.Keys
  {
    var ch := Children(d.graph, b);
    forall x | x in ch
      ensures x in d.subtasks
    {
      assert multiset(ch)[x] > 0;
    }
  }

  lemma CompleteFinished(d: Dag, e: Exec, b: int)
    requires Counts(d, e) && b in d.subtasks && b !in e.finished
    requires forall y :: y in d.subtasks[b].dependencies ==> y in e.finished
    ensures var r := CompleteFixed(e, b);
      && NoDups(r.finished) && Elems(r.finished) <= d.subtasks.Keys
      && forall i :: 0 <= i < |r.finished| && r.finished[i] in d.subtasks ==>
           Elems(d.subtasks[r.finished[i]].dependencies) <= Elems(r.finished[..i])
  {
    var r := CompleteFixed(e, b);
    var n := |e.finished|;
    assert r.finished[..n] == e.finished;
    forall i | 0 <= i < |r.finished| && r.finished[i] in d.subtasks
      ensures Elems(d.subtasks[r.finished[i]].dependencies) <= Elems(r.finished[..i])
    {
      if i < n {
        assert r.finished[..i] == e.finished[..i];
        assert r.finished[i] == e.finished[i];
      } else {
        assert r.finished[i] == b && r.finished[..i] == e.finished;
        forall y | y in Elems(d.subtasks[b].dependencies)
          ensures y in Elems(e.finished)
        {
          assert y in d.subtasks[b].dependencies;
        }
      }
    }
    assert NoDups(r.finished) by {
      NoDupsAppend(e.finished, [b]);
    }
  }

  lemma CompleteReady(d: Dag, e: Exec, rest: seq<int>)
    requires Shaped(d) && Counts(d, e) && Queued(d, e, rest) && |rest| > 0
    ensures Queued(d, CompleteFixed(e, rest[0]), rest[1..])
  {
    var b := rest[0];
    var done := Elems(e.finished);
    var r := CompleteFixed(e, b);
    var z := r.ready[|e.ready|..];
    assert r.ready == e.ready + z;
    assert Elems(r.finished) == done + {b};
    assert b in Elems(rest);
    ReadyAfterComplete(d, e, b);
    QueueStep(e.ready, rest, z, ReadySet(d, done), ReadySet(d, done + {b}));
  }

  /** The queue bookkeeping of one completion, on plain sequences and sets. */
  lemma QueueStep(ready: seq<int>, rest: seq<int>, z: seq<int>, R: set<int>, R': set<int>)
    requires NoDups(ready) && NoDups(rest) && Elems(ready) !! Elems(rest) && Elems(ready) + Elems(rest) == R
    requires |rest| > 0 && NoDups(z) && Elems(z) !! R && R' == (R - {rest[0]}) + Elems(z)
    ensures NoDups(ready + z) && NoDups(rest[1..]) && Elems(ready + z) !! Elems(rest[1..])
    ensures Elems(ready + z) + Elems(rest[1..]) == R'
  {
    var b := rest[0];
    assert Elems(rest) == {b} + Elems(rest[1..]) by {
      assert rest == [b] + rest[1..];
    }
    assert b !in Elems(rest[1..]);
    NoDupsAppend(ready, z);
    assert Elems(ready + z) == Elems(ready) + Elems(z);
  }

  /** Finishing `b` makes ready exactly the subtasks it releases, on top of those ready before. */
  lemma ReadyAfterComplete(d: Dag, e: Exec, b: int)
    requires Shaped(d) && Counts(d, e) && b in ReadySet(d, Elems(e.finished))
    ensures var z := CompleteFixed(e, b).ready[|e.ready|..];
      var R := ReadySet(d, Elems(e.finished));
      && Elems(z) !! R
      && ReadySet(d, Elems(e.finished) + {b}) == (R - {b}) + Elems(z)
  {
    var done := Elems(e.finished);
    var z := CompleteFixed(e, b).ready[|e.ready|..];
    var R := ReadySet(d, done);
    var R' := ReadySet(d, done + {b});
    forall x | x in z
      ensures x in R' && x !in R
    {
      ReleasedIsReady(d, e, b, x);
    }
    forall x | x in R'
      ensures x in R - {b} || x in z
    {
      NowReady(d, e, b, x);
    }
    forall x | x in R - {b}
      ensures x in R'
    {
      MissingAdd(d.subtasks[x].dependencies, done, b);
    }
  }

  /** A child released by finishing `b` was not ready before and is ready now. */
  lemma ReleasedIsReady(d: Dag, e: Exec, b: int, x: int)
    requires Shaped(d) && Counts(d, e) && b in ReadySet(d, Elems(e.finished))
    requires 1 <= IndegreeOf(e.dag.indegree, x) <= multiset(Children(d.graph, b))[x]
    ensures x in d.subtasks && x !in e.finished && x != b
    ensures Missing(d.subtasks[x].dependencies, Elems(e.finished)) > 0
    ensures Missing(d.subtasks[x].dependencies, Elems(e.finished) + {b}) == 0
  {
    var done := Elems(e.finished);
    assert x in d.subtasks;
    var deps := d.subtasks[x].dependencies;
    MissingAdd(deps, done, b);
    if x in e.finished {
      var i :| 0 <= i < |e.finished| && e.finished[i] == x;
      assert Elems(deps) <= Elems(e.finished[..i]) <= done;
      MissingZero(deps, done);
    }
  }

  /** A subtask ready after `b` finishes was ready before, or was released by `b`. */
  lemma NowReady(d: Dag, e: Exec, b: int, x: int)
    requires Shaped(d) && Counts(d, e) && b in ReadySet(d, Elems(e.finished))
    requires x in ReadySet(d, Elems(e.finished) + {b})
    ensures x in ReadySet(d, Elems(e.finished)) - {b} ||
      1 <= IndegreeOf(e.dag.indegree, x) <= multiset(Children(d.graph, b))[x]
  {
    var done := Elems(e.finished);
    MissingAdd(d.subtasks[x].dependencies, done, b);
  }

  lemma {:induction false} RunBatchFixedKeeps(d: Dag, e: Exec, rest: seq<int>)
    requires Shaped(d) && Progressing(d, e, rest)
    ensures Progressing(d, RunBatchFixed(e, rest), [])
    decreases |rest|
  {
    if |rest| > 0 {
      CompleteFixedKeeps(d, e, rest);
      RunBatchFixedKeeps(d, CompleteFixed(e, rest[0]), rest[1..]);
    }
  }

  /** A corrected pass keeps the invariant and finishes the whole ready queue. */
  lemma RoundFixedKeeps(d: Dag, e: Exec)
    requires Shaped(d) && Progressing(d, e, [])
    ensures Progressing(d, RoundFixed(e), [])
    ensures RoundFixed(e).finished == e.finished + e.ready
  {
    var e0 := e.(ready := []);
    assert Counts(d, e0);
    assert Elems(e0.ready) == {};
    RunBatchFixedKeeps(d, e0, e.ready);
  }

  /** Following unfinished dependencies downhill in rank ends at a ready subtask. */
  lemma Descend(d: Dag, rank: map<int, nat>, done: set<int>, x: int) returns (y: int)
    requires Ranked(d, rank) && x in d.subtasks && x !in done
    ensures y in ReadySet(d, done)
    decreases rank[x]
  {
    var deps := d.subtasks[x].dependencies;
    if forall z :: z in deps ==> z in done {
      MissingZero(deps, done);
      y := x;
    } else {
      var z :| z in deps && z !in done;
      y := Descend(d, rank, done, z);
    }
  }

  /** While some subtask is unfinished, the corrected ready queue is not empty. */
  lemma ReadyWhileUnfinished(d: Dag, rank: map<int, nat>, e: Exec)
    requires Ranked(d, rank) && Progressing(d, e, [])
    requires |e.finished| < |d.subtasks.Keys|
    ensures |e.ready| > 0
  {
    var done := Elems(e.finished);
    NoDupsCard(e.finished);
    var x := Outside(done, d.subtasks.Keys);
    var y := Descend(d, rank, done, x);
    assert y in Elems(e.ready);
  }

  /**
   * The graph's shape and `Progressing` between passes, behind one level of
   * recursion: the solver unfolds it only where `Unseal` is called, which
   * keeps the pass-by-pass induction below clear of the invariant's
   * quantifiers.
   */
  ghost predicate Sealed(d: Dag, rank: map<int, nat>, e: Exec, depth: nat)
    decreases depth
  {
    if depth == 0 then Shaped(d) && Ranked(d, rank) && Progressing(d, e, [])
    else Sealed(d, rank, e, depth - 1)
  }

  lemma Unseal(d: Dag, rank: map<int, nat>, e: Exec)
    ensures Sealed(d, rank, e, 1) <==> Shaped(d) && Ranked(d, rank) && Progressing(d, e, [])
  {
    assert Sealed(d, rank, e, 1) == Sealed(d, rank, e, 0);
  }

  /** One corrected pass, while some subtask is unfinished, keeps the invariant and finishes something. */
  lemma PassProgress(d: Dag, rank: map<int, nat>, e: Exec)
    requires Sealed(d, rank, e, 1)
    ensures e.dag.completed == |e.finished| && e.dag.total == |d.subtasks.Keys|
    ensures e.dag.completed < e.dag.total ==>
      Sealed(d, rank, RoundFixed(e), 1) && RoundFixed(e).dag.completed > e.dag.completed
  {
    Unseal(d, rank, e);
    if e.dag.completed < e.dag.total {
      Unseal(d, rank, RoundFixed(e));
      ReadyWhileUnfinished(d, rank, e);
      RoundFixedKeeps(d, e);
    }
  }

  /** Given as many passes as subtasks are unfinished, the corrected loop finishes them all. */
  lemma {:induction false} ExecuteFixedProgress(d: Dag, rank: map<int, nat>, e: Exec, fuel: nat)
    requires Sealed(d, rank, e, 1) && e.dag.completed + fuel >= e.dag.total
    ensures var r := ExecuteFixed(e, fuel);
      Sealed(d, rank, r, 1) && r.dag.completed >= e.dag.total
    decreases fuel
  {
    PassProgress(d, rank, e);
    if fuel > 0 && e.dag.completed < e.dag.total {
      ExecuteFixedProgress(d, rank, RoundFixed(e), fuel - 1);
    }
  }

  /**
   * The corrected executor, started on a closed acyclic subtask graph,
   * finishes every subtask exactly once, each after all of its dependencies,
   * within as many passes as there are subtasks, and leaves the queue empty.
   */
  lemma ExecuteFixedCompletes(d: Dag, rank: map<int, nat>, keyOrder: seq<int>)
    requires Shaped(d) && Ranked(d, rank)
    requires NoDups(keyOrder) && Elems(keyOrder) == d.indegree.Keys
    ensures var e := ExecuteFixed(Start(d, keyOrder), |d.subtasks.Keys|);
      && e.dag.completed == e.dag.total == d.total
      && NoDups(e.finished) && Elems(e.finished) == d.subtasks.Keys
      && (forall i :: 0 <= i < |e.finished| ==>
            Elems(d.subtasks[e.finished[i]].dependencies) <= Elems(e.finished[..i]))
      && e.ready == []
  {
    var s := Start(d, keyOrder);
    assert Sealed(d, rank, s, 1) && s.dag.completed == 0 && s.dag.total == |d.subtasks.Keys| by {
      StartProgressing(d, keyOrder);
      Unseal(d, rank, s);
    }
    ExecuteFixedProgress(d, rank, s, |d.subtasks.Keys|);
    AllFinished(d, rank, ExecuteFixed(s, |d.subtasks.Keys|));
  }

  /** Once `completed` reaches `total` under the invariant, every subtask has finished and the queue is empty. */
  lemma AllFinished(d: Dag, rank: map<int, nat>, e: Exec)
    requires Sealed(d, rank, e, 1) && e.dag.completed >= e.dag.total
    ensures e.dag.completed == e.dag.total == d.total
    ensures NoDups(e.finished) && Elems(e.finished) == d.subtasks.Keys
    ensures forall i :: 0 <= i < |e.finished| ==>
      Elems(d.subtasks[e.finished[i]].dependencies) <= Elems(e.finished[..i])
    ensures e.ready == []
  {
    Unseal(d, rank, e);
    NoDupsCard(e.finished);
    SubsetCard(Elems(e.finished), d.subtasks.Keys);
    SubsetCardEq(Elems(e.finished), d.subtasks.Keys);
    assert ReadySet(d, Elems(e.finished)) == {};
    assert Elems(e.ready) == {};
    NoDupsCard(e.ready);
  }

  lemma StartProgressing(d: Dag, keyOrder: seq<int>)
    requires Shaped(d)
    requires NoDups(keyOrder) && Elems(keyOrder) == d.indegree.Keys
    ensures Progressing(d, Start(d, keyOrder), [])
  {
    var s := Start(d, keyOrder);
    assert Elems(s.finished) == {};
    forall x | x in d.subtasks
      ensures d.indegree[x] == Missing(d.subtasks[x].dependencies, {})
    {
      MissingNone(d.subtasks[x].dependencies);
    }
    assert Elems(s.ready) == ReadySet(d, {});
  }

  // ---------------------------------------------------------------------------
  // From a subtask list with distinct ids

  /** Dropping the last task drops its id, and only that one when ids are distinct. */
  lemma IdsSplit(taskList: seq<SubTask>)
    requires |taskList| > 0
    ensures var n := |taskList| - 1;
      && Ids(taskList) == Ids(taskList[..n]) + {taskList[n].id}
      && IdSeq(taskList[..n]) == IdSeq(taskList)[..n]
      && (NoDups(IdSeq(taskList)) ==> taskList[n].id !in Ids(taskList[..n]))
  {
    var n := |taskList| - 1;
    var front := taskList[..n];
    assert forall i :: 0 <= i < n ==> taskList[i] == front[i];
    if NoDups(IdSeq(taskList)) {
      forall i | 0 <= i < n
        ensures front[i].id != taskList[n].id
      {
        assert IdSeq(taskList)[i] != IdSeq(taskList)[n];
      }
    }
  }

  /** With distinct ids, `graph[b]` lists each subtask once per occurrence of `b` among its dependencies. */
  lemma {:induction false} EdgesIntoCount(taskList: seq<SubTask>, b: int, x: int)
    requires NoDups(IdSeq(taskList))
    ensures multiset(EdgesInto(taskList, b))[x] ==
      if x in Ids(taskList) then multiset(taskList[LastIndex(taskList, x)].dependencies)[b] else 0
    decreases |taskList|
  {
    if |taskList| > 0 {
      var n := |taskList| - 1;
      var front := taskList[..n];
      var last := taskList[n];
      IdsSplit(taskList);
      EdgesIntoCount(front, b, x);
      RepeatCount(last.id, multiset(last.dependencies)[b], x);
      if x != last.id && x in Ids(front) {
        assert LastIndex(taskList, x) == LastIndex(front, x);
      }
    }
  }

  /** With distinct ids, the constructor stores every listed subtask under its id. */
  lemma ConstructStoresAll(taskList: seq<SubTask>)
    requires NoDups(IdSeq(taskList))
    ensures forall i :: 0 <= i < |taskList| ==>
      taskList[i].id in Construct(taskList).subtasks && Construct(taskList).subtasks[taskList[i].id] == taskList[i]
  {
    var d := Construct(taskList);
    forall i | 0 <= i < |taskList|
      ensures taskList[i].id in d.subtasks && d.subtasks[taskList[i].id] == taskList[i]
    {
      var x := taskList[i].id;
      assert x in Ids(taskList);
      IdsDistinct(taskList, LastIndex(taskList, x), i);
    }
  }

  lemma IdsDistinct(taskList: seq<SubTask>, i: nat, j: nat)
    requires NoDups(IdSeq(taskList)) && i < |taskList| && j < |taskList| && taskList[i].id == taskList[j].id
    ensures i == j
  {
    var ids := IdSeq(taskList);
    assert ids[i] == ids[j];
  }

  /** With distinct ids, `graph[b]` counts each subtask as often as its stored dependencies list `b`. */
  lemma ConstructEdges(taskList: seq<SubTask>)
    requires NoDups(IdSeq(taskList))
    ensures var d := Construct(taskList);
      forall b, x :: multiset(Children(d.graph, b))[x] ==
        if x in d.subtasks then multiset(d.subtasks[x].dependencies)[b] else 0
  {
    var d := Construct(taskList);
    forall b, x
      ensures multiset(Children(d.graph, b))[x] ==
        if x in d.subtasks then multiset(d.subtasks[x].dependencies)[b] else 0
    {
      EdgesIntoCount(taskList, b, x);
    }
  }

  /** The constructor, given distinct ids, builds a scheduler of the shape the executor's proof expects. */
  lemma ConstructShaped(taskList: seq<SubTask>)
    requires NoDups(IdSeq(taskList))
    ensures Shaped(Construct(taskList)) && |Construct(taskList).subtasks.Keys| == |taskList|
  {
    var d := Construct(taskList);
    NoDupsCard(IdSeq(taskList));
    ConstructEdges(taskList);
    assert forall x :: x in d.subtasks ==> d.indegree[x] == |d.subtasks[x].dependencies|;
  }

  /** Every dependency is a listed subtask of lower rank: the subtask list describes a DAG. */
  ghost predicate Acyclic(taskList: seq<SubTask>, rank: map<int, nat>) {
    forall i :: 0 <= i < |taskList| ==>
      (taskList[i].id in rank && forall y :: y in taskList[i].dependencies ==>
         y in Ids(taskList) && y in rank && rank[y] < rank[taskList[i].id])
  }

  lemma ConstructRanked(taskList: seq<SubTask>, rank: map<int, nat>)
    requires NoDups(IdSeq(taskList)) && Acyclic(taskList, rank)
    ensures Ranked(Construct(taskList), rank)
  {
    var d := Construct(taskList);
    ConstructStoresAll(taskList);
    forall x | x in d.subtasks
      ensures x in rank && forall y :: y in d.subtasks[x].dependencies ==> y in d.subtasks && y in rank && rank[y] < rank[x]
    {
      var i :| 0 <= i < |taskList| && taskList[i].id == x;
      assert d.subtasks[x] == taskList[i];
    }
  }

  /**
   * The corrected executor, on the scheduler built from a subtask list with
   * distinct ids that describes a DAG, finishes every subtask exactly once,
   * each after all of its dependencies, within as many passes as there are
   * subtasks, and stops with `completed == total`.
   */
  lemma FixedExecutorCompletes(taskList: seq<SubTask>, rank: map<int, nat>, keyOrder: seq<int>)
    requires NoDups(IdSeq(taskList)) && Acyclic(taskList, rank)
    requires NoDups(keyOrder) && Elems(keyOrder) == Ids(taskList)
    ensures var e := ExecuteFixed(Start(Construct(taskList), keyOrder), |taskList|);
      && e.dag.completed == e.dag.total == |taskList|
      && NoDups(e.finished) && Elems(e.finished) == Ids(taskList)
      && (forall i, j :: 0 <= i < |e.finished| && 0 <= j < |taskList| && e.finished[i] == taskList[j].id ==>
            Elems(taskList[j].dependencies) <= Elems(e.finished[..i]))
      && e.ready == []
  {
    var d := Construct(taskList);
    assert Shaped(d) && Ranked(d, rank) && |d.subtasks.Keys| == |taskList| by {
      ConstructShaped(taskList);
      ConstructRanked(taskList, rank);
    }
    ExecuteFixedCompletes(d, rank, keyOrder);
    var e := ExecuteFixed(Start(d, keyOrder), |taskList|);
    ConstructStoresAll(taskList);
    OrderInListTerms(d, taskList, e.finished);
  }

  /** The dependency order of finished subtasks, restated for the list the scheduler was built from. */
  lemma OrderInListTerms(d: Dag, taskList: seq<SubTask>, finished: seq<int>)
    requires forall j :: 0 <= j < |taskList| ==> taskList[j].id in d.subtasks && d.subtasks[taskList[j].id] == taskList[j]
    requires forall i :: 0 <= i < |finished| && finished[i] in d.subtasks ==>
      Elems(d.subtasks[finished[i]].dependencies) <= Elems(finished[..i])
    ensures forall i, j :: 0 <= i < |finished| && 0 <= j < |taskList| && finished[i] == taskList[j].id ==>
      Elems(taskList[j].dependencies) <= Elems(finished[..i])
  {
  }
}

=== FILE: seqs.dfy ===
/** Small facts about sequences shared by every part of the model. */
module Seqs {

  /** No element occurs twice. */
  predicate NoDups<T(==)>(s: seq<T>) {
    forall i, j :: 0 <= i < j < |s| ==> s[i] != s[j]
  }

  /** `a` is a prefix of `b`. */
  predicate IsPrefix<T(==)>(a: seq<T>, b: seq<T>) {
    |a| <= |b| && forall i :: 0 <= i < |a| ==> a[i] == b[i]
  }

  lemma PrefixTrans<T>(a: seq<T>, b: seq<T>, c: seq<T>)
    requires IsPrefix(a, b) && IsPrefix(b, c)
    ensures IsPrefix(a, c)
  {
  }

  /** Moving the head of `b` onto the end of `a` keeps the concatenation. */
  lemma ConsAppend<T>(a: seq<T>, b: seq<T>)
    requires |b| > 0
    ensures a + [b[0]] + b[1..] == a + b
  {
    assert b == [b[0]] + b[1..];
  }

  /** The set of elements of a sequence. */
  function Elems<T>(s: seq<T>): set<T> {
    set x | x in s
  }

  lemma ElemsSnoc<T>(s: seq<T>, x: T)
    ensures Elems(s + [x]) == Elems(s) + {x}
  {
    assert forall y :: y in s + [x] <==> y in s || y == x;
  }

  /** `part` is `whole` with some elements left out: its `i`-th element sits at `whole[pos[i]]`, positions increasing. */
  ghost predicate PositionsIn<T>(pos: seq<nat>, whole: seq<T>, part: seq<T>) {
    && |pos| == |part|
    && (forall i :: 0 <= i < |pos| ==> pos[i] < |whole| && whole[pos[i]] == part[i])
    && (forall i, j :: 0 <= i < j < |pos| ==> pos[i] < pos[j])
  }

  /** Every position moved one place on. */
  function Shift(pos: seq<nat>): (r: seq<nat>)
    ensures |r| == |pos| && forall i :: 0 <= i < |r| ==> r[i] == pos[i] + 1
  {
    seq(|pos|, i requires 0 <= i < |pos| => pos[i] + 1)
  }

  /** Positions in the tail of `whole` are positions in `whole`, one place on; the head may be kept in front. */
  lemma PositionsCons<T>(pos: seq<nat>, whole: seq<T>, part: seq<T>)
    requires |whole| > 0 && PositionsIn(pos, whole[1..], part)
    ensures PositionsIn(Shift(pos), whole, part)
    ensures PositionsIn([0] + Shift(pos), whole, [whole[0]] + part)
  {
    var sh := Shift(pos);
    forall i | 0 <= i < |sh|
      ensures sh[i] < |whole| && whole[sh[i]] == part[i]
    {
      assert whole[1..][pos[i]] == whole[pos[i] + 1];
    }
    var p2 := [0] + sh;
    var q2 := [whole[0]] + part;
    forall i | 0 <= i < |p2|
      ensures p2[i] < |whole| && whole[p2[i]] == q2[i]
    {
      if i > 0 {
        assert p2[i] == sh[i - 1] && q2[i] == part[i - 1];
      }
    }
  }

  /** Adds `x` at the back unless it is already present: a set insert on a duplicate-free listing. */
  function Insert<T(==)>(s: seq<T>, x: T): (r: seq<T>)
    ensures Elems(r) == Elems(s) + {x}
    ensures NoDups(s) ==> NoDups(r)
    ensures x in s ==> r == s
  {
    if x in s then s else s + [x]
  }

  lemma NoDupsCard<T>(s: seq<T>)
    requires NoDups(s)
    ensures |Elems(s)| == |s|
  {
    if |s| > 0 {
      var t := s[..|s| - 1];
      assert s == t + [s[|s| - 1]];
      assert NoDups(t);
      NoDupsCard(t);
      assert Elems(s) == Elems(t) + {s[|s| - 1]};
      assert s[|s| - 1] !in Elems(t);
    }
  }

  lemma ElemsCard<T>(s: seq<T>)
    ensures |Elems(s)| <= |s|
  {
    if |s| > 0 {
      var t := s[..|s| - 1];
      assert s == t + [s[|s| - 1]];
      ElemsCard(t);
      assert Elems(s) == Elems(t) + {s[|s| - 1]};
    }
  }

  lemma SubsetCard<T>(a: set<T>, b: set<T>)
    requires a <= b
    ensures |a| <= |b|
  {
    assert b == a + (b - a);
  }

  /** A sequence with a repeated element lists fewer distinct elements than its length. */
  lemma DupsCard<T>(s: seq<T>, i: nat, j: nat)
    requires i < j < |s| && s[i] == s[j]
    ensures |Elems(s)| < |s|
  {
    var t := s[..j] + s[j + 1..];
    assert s == s[..j] + [s[j]] + s[j + 1..];
    assert s[i] == t[i];
    assert Elems(s) == Elems(t);
    ElemsCard(t);
  }

  /** A subset as large as its superset is the whole of it. */
  lemma SubsetCardEq<T>(a: set<T>, b: set<T>)
    requires a <= b && |a| >= |b|
    ensures a == b
  {
    assert b == a + (b - a);
    assert |b - a| == 0;
  }

  /** Two duplicate-free sequences with no element in common concatenate to a duplicate-free one. */
  lemma NoDupsAppend<T>(a: seq<T>, b: seq<T>)
    requires NoDups(a) && NoDups(b) && Elems(a) !! Elems(b)
    ensures NoDups(a + b)
  {
    var c := a + b;
    forall i, j | 0 <= i < j < |c|
      ensures c[i] != c[j]
    {
      if i < |a| && j >= |a| {
        assert c[i] in Elems(a) && c[j] == b[j - |a|] && c[j] in Elems(b);
      } else if i >= |a| {
        assert c[i] == b[i - |a|] && c[j] == b[j - |a|];
      }
    }
  }

  /** A subset smaller than its superset misses one of its elements. */
  lemma Outside<T>(a: set<T>, b: set<T>) returns (x: T)
    requires a <= b && |a| < |b|
    ensures x in b && x !in a
  {
    var diff := b - a;
    assert b == a + diff;
    assert |diff| > 0;
    x :| x in diff;
  }
}

=== FILE: task_queue.dfy ===
/**
 * The processors' shared `TaskQueue` as a sequential state machine: a FIFO
 * of tasks and a shutdown flag. `pop` does not block: where the source waits
 * on the condition variable (queue empty, flag clear) the model answers
 * `WouldBlock` and leaves the state alone.
 *
 * A processor pops tasks until `pop` fails and counts one completion per
 * task it ran; running a task (building and executing its DAG) is not part
 * of this module.
 */
module MultiProcessor {
  import opened Seqs

  datatype TaskQueue<T> = TaskQueue(queue: seq<T>, shutdownFlag: bool)

  /** A fresh queue: empty, not shut down. */
  function EmptyQueue<T>(): TaskQueue<T> {
    TaskQueue([], false)
  }

  /** What `pop` does: hand out the front task, report shutdown (`false`), or wait. */
  datatype PopResult<T> = Popped(task: T, after: TaskQueue<T>) | Closed | WouldBlock

  /** `push`: the task goes to the back; the flag is untouched. */
  function Push<T>(q: TaskQueue<T>, task: T): (r: TaskQueue<T>)
    ensures |r.queue| == |q.queue| + 1 && r.queue[|q.queue|] == task
    ensures IsPrefix(q.queue, r.queue) && r.shutdownFlag == q.shutdownFlag
  {
    q.(queue := q.queue + [task])
  }

  /**
   * `pop`: `false` exactly when the flag is set and nothing is queued; a
   * wait exactly when nothing is queued and the flag is clear; otherwise the
   * front task, removed from the queue.
   */
  function Pop<T>(q: TaskQueue<T>): (r: PopResult<T>)
    ensures r.Closed? <==> q.shutdownFlag && |q.queue| == 0
    ensures r.WouldBlock? <==> !q.shutdownFlag && |q.queue| == 0
    ensures r.Popped? ==> [r.task] + r.after.queue == q.queue && r.after.shutdownFlag == q.shutdownFlag
  {
    if |q.queue| == 0 && !q.shutdownFlag then WouldBlock
    else if q.shutdownFlag && |q.queue| == 0 then Closed
    else Popped(q.queue[0], q.(queue := q.queue[1..]))
  }

  /** `shutdown`: the flag is set and the queued tasks stay queued. */
  function Shutdown<T>(q: TaskQueue<T>): (r: TaskQueue<T>)
    ensures r.shutdownFlag && r.queue == q.queue
  {
    q.(shutdownFlag := true)
  }

  // ---------------------------------------------------------------------------
  // Sequences of operations

  datatype Op<T> = PushOp(task: T) | PopOp | ShutdownOp

  /** The state after one operation; a `pop` that fails or would wait changes nothing. */
  function Step<T>(q: TaskQueue<T>, op: Op<T>): TaskQueue<T> {
    match op
    case PushOp(t) => Push(q, t)
    case ShutdownOp => Shutdown(q)
    case PopOp => match Pop(q) case Popped(_, after) => after case _ => q
  }

  /** The task a `pop` hands out, if any. */
  function Delivered<T>(q: TaskQueue<T>, op: Op<T>): seq<T> {
    if op.PopOp? && Pop(q).Popped? then [Pop(q).task] else []
  }

  /** The tasks the operations push. */
  function Pushed<T>(ops: seq<Op<T>>): seq<T>
    decreases |ops|
  {
    if |ops| == 0 then [] else (if ops[0].PushOp? then [ops[0].task] else []) + Pushed(ops[1..])
  }

  /** The state after a run of operations. */
  function Apply<T>(q: TaskQueue<T>, ops: seq<Op<T>>): TaskQueue<T>
    decreases |ops|
  {
    if |ops| == 0 then q else Apply(Step(q, ops[0]), ops[1..])
  }

  /** The tasks a run of operations pops, in order. */
  function Handed<T>(q: TaskQueue<T>, ops: seq<Op<T>>): seq<T>
    decreases |ops|
  {
    if |ops| == 0 then [] else Delivered(q, ops[0]) + Handed(Step(q, ops[0]), ops[1..])
  }

  /**
   * First in, first out: whatever the interleaving of operations, the tasks
   * popped followed by those still queued are the tasks queued at the start
   * followed by the tasks pushed, in push order. No task is lost, duplicated
   * or overtaken.
   */
  lemma {:induction false} FifoOrder<T>(q: TaskQueue<T>, ops: seq<Op<T>>)
    ensures Handed(q, ops) + Apply(q, ops).queue == q.queue + Pushed(ops)
    decreases |ops|
  {
    if |ops| > 0 {
      var q1 := Step(q, ops[0]);
      var d := Delivered(q, ops[0]);
      var head := Pushed([ops[0]]);
      FifoOrder(q1, ops[1..]);
      StepOrder(q, ops[0]);
      PushedCons(ops);
      calc {
        Handed(q, ops) + Apply(q, ops).queue;
        (d + Handed(q1, ops[1..])) + Apply(q1, ops[1..]).queue;
        d + (Handed(q1, ops[1..]) + Apply(q1, ops[1..]).queue);
        d + (q1.queue + Pushed(ops[1..]));
        (d + q1.queue) + Pushed(ops[1..]);
        (q.queue + head) + Pushed(ops[1..]);
        q.queue + (head + Pushed(ops[1..]));
      }
    }
  }

  /** One operation: the task handed out, followed by the queue after, is the queue before plus what was pushed. */
  lemma StepOrder<T>(q: TaskQueue<T>, op: Op<T>)
    ensures Delivered(q, op) + Step(q, op).queue == q.queue + Pushed([op])
  {
    assert Pushed([op]) == (if op.PushOp? then [op.task] else []) + Pushed([op][1..]);
    assert [op][1..] == [];
    if op.PopOp? && Pop(q).Popped? {
      assert q.queue == [Pop(q).task] + Step(q, op).queue;
    }
  }

  lemma PushedCons<T>(ops: seq<Op<T>>)
    requires |ops| > 0
    ensures Pushed(ops) == Pushed([ops[0]]) + Pushed(ops[1..])
  {
    assert [ops[0]][1..] == [];
  }

  /** Nothing clears the shutdown flag once it is set. */
  lemma {:induction false} ShutdownSticks<T>(q: TaskQueue<T>, ops: seq<Op<T>>)
    requires q.shutdownFlag
    ensures Apply(q, ops).shutdownFlag
    decreases |ops|
  {
    if |ops| > 0 {
      ShutdownSticks(Step(q, ops[0]), ops[1..]);
    }
  }

  // ---------------------------------------------------------------------------
  // The processor loop

  /** Where a processor's loop stops, the tasks it ran in order, and the shared completion count. */
  datatype Run<T> = Run(after: TaskQueue<T>, executed: seq<T>, completedTasks: int, shutDown: bool)

  /**
   * `Processor::operator()`: pop and run tasks while `pop` hands one out,
   * counting each. `shutDown` says the loop ended because `pop` returned
   * `false`; otherwise it would now wait for another push.
   */
  function ProcessorLoop<T>(q: TaskQueue<T>, completedTasks: int): (r: Run<T>)
    ensures r.completedTasks == completedTasks + |r.executed|
    ensures r.executed == q.queue && r.after == q.(queue := [])
    ensures r.shutDown == q.shutdownFlag
    decreases |q.queue|
  {
    match Pop(q)
    case Popped(task, after) =>
      var r := ProcessorLoop(after, completedTasks + 1);
      Run(r.after, [task] + r.executed, r.completedTasks, r.shutDown)
    case Closed => Run(q, [], completedTasks, true)
    case WouldBlock => Run(q, [], completedTasks, false)
  }

  /**
   * After `shutdown`, a processor still runs every queued task, in queue
   * order, before `pop` returns `false`; nothing pushed before the shutdown is
   * dropped.
   */
  lemma DrainAfterShutdown<T>(q: TaskQueue<T>, completedTasks: int)
    ensures var r := ProcessorLoop(Shutdown(q), completedTasks);
      && r.executed == q.queue && r.shutDown
      && r.completedTasks == completedTasks + |q.queue|
      && Pop(r.after).Closed?
  {
  }

  /** Pushing a batch of tasks on a fresh queue, then shutting it down, makes one processor run exactly that batch. */
  lemma PushedBatchRuns<T>(tasks: seq<T>)
    ensures var ops := PushAll(tasks) + [ShutdownOp];
      var q := Apply(EmptyQueue(), ops);
      && q.shutdownFlag && q.queue == tasks
      && ProcessorLoop(q, 0).executed == tasks
      && ProcessorLoop(q, 0).completedTasks == |tasks|
  {
    var ops := PushAll(tasks) + [ShutdownOp];
    var q := Apply(EmptyQueue(), ops);
    FifoOrder(EmptyQueue(), ops);
    NoPopNoDelivery(EmptyQueue(), ops);
    PushedAll(tasks);
    assert [] + q.queue == q.queue;
    ShutdownLast(EmptyQueue<T>(), PushAll(tasks));
  }

  function PushAll<T>(tasks: seq<T>): (ops: seq<Op<T>>)
    ensures |ops| == |tasks| && forall i :: 0 <= i < |ops| ==> ops[i] == PushOp(tasks[i])
  {
    seq(|tasks|, i requires 0 <= i < |tasks| => PushOp(tasks[i]))
  }

  lemma {:induction false} PushedAll<T>(tasks: seq<T>)
    ensures Pushed(PushAll(tasks) + [ShutdownOp]) == tasks
    decreases |tasks|
  {
    var ops := PushAll(tasks) + [ShutdownOp];
    if |tasks| == 0 {
      assert ops == [ShutdownOp];
    } else {
      PushedAll(tasks[1..]);
      assert ops[1..] == PushAll(tasks[1..]) + [ShutdownOp];
    }
  }

  /** Without a `pop`, nothing is handed out. */
  lemma {:induction false} NoPopNoDelivery<T>(q: TaskQueue<T>, ops: seq<Op<T>>)
    requires forall i :: 0 <= i < |ops| ==> !ops[i].PopOp?
    ensures Handed(q, ops) == []
    decreases |ops|
  {
    if |ops| > 0 {
      NoPopNoDelivery(Step(q, ops[0]), ops[1..]);
    }
  }

  /** A final `shutdown` leaves the flag set. */
  lemma {:induction false} ShutdownLast<T>(q: TaskQueue<T>, ops: seq<Op<T>>)
    ensures Apply(q, ops + [ShutdownOp]).shutdownFlag
    decreases |ops|
  {
    if |ops| == 0 {
      assert ops + [ShutdownOp] == [ShutdownOp];
    } else {
      assert (ops + [ShutdownOp])[1..] == ops[1..] + [ShutdownOp];
      ShutdownLast(Step(q, ops[0]), ops[1..]);
    }
  }
}

=== FILE: thread_simulation.dfy ===
/**
 * The single-processor scheduler simulation: a ready queue of simulated
 * threads run either first-in first-out or round robin with a fixed quantum.
 *
 * Instead of sleeping, a run returns its trace: one `Slice` per time the
 * scheduler hands the processor to a thread, saying for how many milliseconds.
 * The virtual clock at the end of a run is the sum of the trace's slices.
 */
module ThreadSimulation {

  /** The round-robin quantum, in milliseconds. */
  const TimeQuantum: int := 1000

  /** A simulated thread. `completed` is carried but never read or written by the scheduler. */
  datatype SimThread = SimThread(id: int, name: string, burstTime: int, completed: bool)

  /** A thread as the constructor builds it: not completed. */
  function NewSimThread(id: int, name: string, burstTime: int): (t: SimThread)
    ensures t.id == id && t.name == name && t.burstTime == burstTime && !t.completed
  {
    SimThread(id, name, burstTime, false)
  }

  datatype ThreadScheduler = ThreadScheduler(readyQueue: seq<SimThread>)

  /** The processor given to thread `id` (named `name`) for `ms` milliseconds. */
  datatype Slice = Slice(id: int, name: string, ms: int)

  /** What a run leaves behind: the scheduler state and the trace of slices. */
  datatype Run = Run(after: ThreadScheduler, trace: seq<Slice>)

  /** `addThread`: the thread joins the back of the ready queue. */
  function AddThread(s: ThreadScheduler, t: SimThread): (r: ThreadScheduler)
    ensures |r.readyQueue| == |s.readyQueue| + 1
    ensures r.readyQueue[|s.readyQueue|] == t
    ensures forall i :: 0 <= i < |s.readyQueue| ==> r.readyQueue[i] == s.readyQueue[i]
  {
    ThreadScheduler(s.readyQueue + [t])
  }

  /** The slice in which `t` runs to completion. */
  function Whole(t: SimThread): Slice {
    Slice(t.id, t.name, t.burstTime)
  }

  /** The virtual clock after a trace. */
  function Elapsed(trace: seq<Slice>): int
    decreases |trace|
  {
    if |trace| == 0 then 0 else trace[0].ms + Elapsed(trace[1..])
  }

  /** Sum of the burst times of a queue. */
  function TotalBurst(q: seq<SimThread>): int
    decreases |q|
  {
    if |q| == 0 then 0 else q[0].burstTime + TotalBurst(q[1..])
  }

  // ---------------------------------------------------------------------------
  // First-in first-out

  /**
   * `runFIFO`: threads run in the order they were added, each for exactly its
   * burst time, and the ready queue ends empty; the clock advances by the sum
   * of the burst times.
   */
  function RunFIFO(s: ThreadScheduler): (r: Run)
    ensures r.after.readyQueue == []
    ensures |r.trace| == |s.readyQueue|
    ensures forall i :: 0 <= i < |s.readyQueue| ==> r.trace[i] == Whole(s.readyQueue[i])
    ensures Elapsed(r.trace) == TotalBurst(s.readyQueue)
    decreases |s.readyQueue|
  {
    if |s.readyQueue| == 0 then Run(s, [])
    else
      var t := s.readyQueue[0];
      var rest := RunFIFO(ThreadScheduler(s.readyQueue[1..]));
      var trace := [Whole(t)] + rest.trace;
      assert trace[1..] == rest.trace;
      Run(rest.after, trace)
  }

  /** Adding a thread and running FIFO runs the earlier threads as before, then the new one. */
  lemma FIFOAfterAdd(s: ThreadScheduler, t: SimThread)
    ensures RunFIFO(AddThread(s, t)).trace == RunFIFO(s).trace + [Whole(t)]
  {
    var a := RunFIFO(AddThread(s, t)).trace;
    var b := RunFIFO(s).trace + [Whole(t)];
    assert |a| == |b|;
    forall i | 0 <= i < |a|
      ensures a[i] == b[i]
    {
      if i < |s.readyQueue| {
        assert AddThread(s, t).readyQueue[i] == s.readyQueue[i];
      }
    }
  }

  // ---------------------------------------------------------------------------
  // Round robin

  /** `readyQueue` and the local `tempQueue` of `runRoundRobin`. */
  datatype Queues = Queues(ready: seq<SimThread>, temp: seq<SimThread>)

  /**
   * What the swap at the end of each iteration keeps: the ready queue is only
   * empty when the temporary queue is too. It holds on entry, where the
   * temporary queue is empty.
   */
  predicate Swapped(q: Queues) {
    |q.ready| == 0 ==> |q.temp| == 0
  }

  /** `t` after running for one quantum. */
  function Preempted(t: SimThread): SimThread {
    t.(burstTime := t.burstTime - TimeQuantum)
  }

  /** One iteration's outcome: the queues after it and the slice it ran. */
  datatype Step = Step(next: Queues, slice: Slice)

  /**
   * One iteration of the `runRoundRobin` loop. A thread whose burst fits the
   * quantum runs for its whole burst and leaves; any other runs for exactly one
   * quantum and goes to the back of the temporary queue with that much less
   * (still positive) burst; and when the ready queue runs dry the temporary
   * queue takes its place. Read front to back, ready-then-temp is a single
   * queue the iteration pops from the front and appends to at the back.
   */
  function RoundRobinStep(q: Queues): (r: Step)
    requires |q.ready| > 0
    ensures var t := q.ready[0];
      && (t.burstTime <= TimeQuantum ==>
            r.slice == Whole(t) && r.next.ready + r.next.temp == q.ready[1..] + q.temp)
      && (t.burstTime > TimeQuantum ==>
            && r.slice == Slice(t.id, t.name, TimeQuantum)
            && Preempted(t).burstTime > 0
            && r.next.ready + r.next.temp == q.ready[1..] + q.temp + [Preempted(t)])
    ensures Swapped(r.next)
  {
    var t := q.ready[0];
    var ready := q.ready[1..];
    var slice := if t.burstTime <= TimeQuantum then Whole(t) else Slice(t.id, t.name, TimeQuantum);
    var temp := if t.burstTime <= TimeQuantum then q.temp else q.temp + [Preempted(t)];
    if |ready| == 0 && |temp| > 0 then
      assert temp + ready == ready + temp;
      Step(Queues(temp, ready), slice)
    else Step(Queues(ready, temp), slice)
  }

  /** What is left to run of one thread, plus one for the iteration that finishes it. */
  function Cost(t: SimThread): nat {
    (if t.burstTime > 0 then t.burstTime else 0) + 1
  }

  /** The termination measure of round robin. */
  function Work(q: seq<SimThread>): nat
    decreases |q|
  {
    if |q| == 0 then 0 else Cost(q[0]) + Work(q[1..])
  }

  lemma {:induction false} WorkAppend(a: seq<SimThread>, b: seq<SimThread>)
    ensures Work(a + b) == Work(a) + Work(b)
    decreases |a|
  {
    if |a| == 0 {
      assert a + b == b;
    } else {
      assert (a + b)[1..] == a[1..] + b;
      WorkAppend(a[1..], b);
    }
  }

  /** Each iteration either finishes a thread or takes a positive quantum off one. */
  lemma StepShrinks(q: Queues)
    requires |q.ready| > 0
    ensures var n := RoundRobinStep(q).next;
      Work(n.ready + n.temp) < Work(q.ready + q.temp)
  {
    var t := q.ready[0];
    var n := RoundRobinStep(q).next;
    WorkAppend(q.ready, q.temp);
    WorkAppend(q.ready[1..], q.temp);
    if t.burstTime > TimeQuantum {
      WorkAppend(q.ready[1..] + q.temp, [Preempted(t)]);
    }
  }

  /** Where the round-robin loop stops: the trace it produced and the two queues at exit. */
  datatype LoopEnd = LoopEnd(trace: seq<Slice>, last: Queues)

  /**
   * The `runRoundRobin` loop from a given pair of queues. It exits when the ready
   * queue is empty, and the swap has then left the temporary queue empty too.
   */
  function RoundRobinLoop(q: Queues): (r: LoopEnd)
    requires Swapped(q)
    ensures r.last.ready == [] && r.last.temp == []
    decreases Work(q.ready + q.temp)
  {
    if |q.ready| == 0 then LoopEnd([], q)
    else
      var st := RoundRobinStep(q);
      StepShrinks(q);
      var rest := RoundRobinLoop(st.next);
      LoopEnd([st.slice] + rest.trace, rest.last)
  }

  /**
   * `runRoundRobin`: the loop started from the ready queue and an empty
   * temporary queue; both queues are empty when it stops.
   */
  function RunRoundRobin(s: ThreadScheduler): (r: Run)
    ensures r.after.readyQueue == []
    ensures Elapsed(r.trace) == TotalBurst(s.readyQueue)
    ensures forall i :: 0 <= i < |r.trace| ==> r.trace[i].ms <= TimeQuantum
  {
    var q := Queues(s.readyQueue, []);
    LoopIsReference(q);
    assert q.ready + q.temp == s.readyQueue;
    ReferenceConservesTotal(s.readyQueue);
    ReferenceSlicesBounded(s.readyQueue);
    var end := RoundRobinLoop(q);
    Run(ThreadScheduler(end.last.ready), end.trace)
  }

  // ---------------------------------------------------------------------------
  // Round robin over one queue: the reference the two-queue loop is checked against

  /**
   * Textbook round robin over a single queue: pop the front; run it to
   * completion if its burst fits the quantum, otherwise run one quantum and
   * append what is left at the back.
   */
  function RoundRobinReference(q: seq<SimThread>): seq<Slice>
    decreases Work(q)
  {
    if |q| == 0 then []
    else
      var t := q[0];
      WorkAppend([t], q[1..]);
      assert [t] + q[1..] == q;
      if t.burstTime <= TimeQuantum then [Whole(t)] + RoundRobinReference(q[1..])
      else
        WorkAppend(q[1..], [Preempted(t)]);
        [Slice(t.id, t.name, TimeQuantum)] + RoundRobinReference(q[1..] + [Preempted(t)])
  }

  /** The two-queue loop with its swap produces exactly the single-queue round robin trace. */
  lemma {:induction false} LoopIsReference(q: Queues)
    requires Swapped(q)
    ensures RoundRobinLoop(q).trace == RoundRobinReference(q.ready + q.temp)
    decreases Work(q.ready + q.temp)
  {
    if |q.ready| == 0 {
      assert q.ready + q.temp == [];
    } else {
      var st := RoundRobinStep(q);
      StepShrinks(q);
      LoopIsReference(st.next);
      var all := q.ready + q.temp;
      assert all[0] == q.ready[0];
      assert all[1..] == q.ready[1..] + q.temp;
    }
  }

  /** Burst time still owed to the threads with id `x`. */
  function Pending(q: seq<SimThread>, x: int): int
    decreases |q|
  {
    if |q| == 0 then 0 else (if q[0].id == x then q[0].burstTime else 0) + Pending(q[1..], x)
  }

  /** Time the processor spent on the threads with id `x`. */
  function Executed(trace: seq<Slice>, x: int): int
    decreases |trace|
  {
    if |trace| == 0 then 0 else (if trace[0].id == x then trace[0].ms else 0) + Executed(trace[1..], x)
  }

  lemma {:induction false} PendingAppend(a: seq<SimThread>, b: seq<SimThread>, x: int)
    ensures Pending(a + b, x) == Pending(a, x) + Pending(b, x)
    decreases |a|
  {
    if |a| == 0 {
      assert a + b == b;
    } else {
      assert (a + b)[1..] == a[1..] + b;
      PendingAppend(a[1..], b, x);
    }
  }

  lemma {:induction false} TotalBurstAppend(a: seq<SimThread>, b: seq<SimThread>)
    ensures TotalBurst(a + b) == TotalBurst(a) + TotalBurst(b)
    decreases |a|
  {
    if |a| == 0 {
      assert a + b == b;
    } else {
      assert (a + b)[1..] == a[1..] + b;
      TotalBurstAppend(a[1..], b);
    }
  }

  /**
   * Conservation: every thread id is given exactly the burst time its threads
   * arrived with, a quantum at a time and then the remainder.
   */
  lemma {:induction false} ReferenceConserves(q: seq<SimThread>, x: int)
    ensures Executed(RoundRobinReference(q), x) == Pending(q, x)
    decreases Work(q)
  {
    if |q| > 0 {
      var t := q[0];
      var tr := RoundRobinReference(q);
      WorkAppend([t], q[1..]);
      assert [t] + q[1..] == q;
      if t.burstTime <= TimeQuantum {
        ReferenceConserves(q[1..], x);
        assert tr[1..] == RoundRobinReference(q[1..]);
      } else {
        WorkAppend(q[1..], [Preempted(t)]);
        ReferenceConserves(q[1..] + [Preempted(t)], x);
        PendingAppend(q[1..], [Preempted(t)], x);
        assert [Preempted(t)][1..] == [];
        assert tr[1..] == RoundRobinReference(q[1..] + [Preempted(t)]);
      }
    }
  }

  /** The clock advances by the sum of all bursts. */
  lemma {:induction false} ReferenceConservesTotal(q: seq<SimThread>)
    ensures Elapsed(RoundRobinReference(q)) == TotalBurst(q)
    decreases Work(q)
  {
    if |q| > 0 {
      var t := q[0];
      var tr := RoundRobinReference(q);
      WorkAppend([t], q[1..]);
      assert [t] + q[1..] == q;
      if t.burstTime <= TimeQuantum {
        ReferenceConservesTotal(q[1..]);
        assert tr[1..] == RoundRobinReference(q[1..]);
      } else {
        WorkAppend(q[1..], [Preempted(t)]);
        ReferenceConservesTotal(q[1..] + [Preempted(t)]);
        TotalBurstAppend(q[1..], [Preempted(t)]);
        assert [Preempted(t)][1..] == [];
        assert tr[1..] == RoundRobinReference(q[1..] + [Preempted(t)]);
      }
    }
  }

  /** No slice is longer than the quantum. */
  lemma {:induction false} ReferenceSlicesBounded(q: seq<SimThread>)
    ensures forall i :: 0 <= i < |RoundRobinReference(q)| ==> RoundRobinReference(q)[i].ms <= TimeQuantum
    decreases Work(q)
  {
    if |q| > 0 {
      var t := q[0];
      WorkAppend([t], q[1..]);
      assert [t] + q[1..] == q;
      if t.burstTime <= TimeQuantum {
        ReferenceSlicesBounded(q[1..]);
      } else {
        WorkAppend(q[1..], [Preempted(t)]);
        ReferenceSlicesBounded(q[1..] + [Preempted(t)]);
      }
    }
  }

  /** Round robin gives each thread id exactly the burst time it asked for. */
  lemma RoundRobinConserves(s: ThreadScheduler, x: int)
    ensures Executed(RunRoundRobin(s).trace, x) == Pending(s.readyQueue, x)
  {
    var q := Queues(s.readyQueue, []);
    LoopIsReference(q);
    assert q.ready + q.temp == s.readyQueue;
    ReferenceConserves(s.readyQueue, x);
  }

  /** When every burst fits the quantum, round robin is FIFO. */
  lemma {:induction false} ShortBurstsReferenceIsFIFO(q: seq<SimThread>)
    requires forall i :: 0 <= i < |q| ==> q[i].burstTime <= TimeQuantum
    ensures RoundRobinReference(q) == RunFIFO(ThreadScheduler(q)).trace
    decreases |q|
  {
    if |q| > 0 {
      ShortBurstsReferenceIsFIFO(q[1..]);
      var a := RunFIFO(ThreadScheduler(q)).trace;
      assert a == [Whole(q[0])] + RunFIFO(ThreadScheduler(q[1..])).trace;
    }
  }

  lemma RoundRobinShortIsFIFO(s: ThreadScheduler)
    requires forall i :: 0 <= i < |s.readyQueue| ==> s.readyQueue[i].burstTime <= TimeQuantum
    ensures RunRoundRobin(s).trace == RunFIFO(s).trace
  {
    var q := Queues(s.readyQueue, []);
    LoopIsReference(q);
    assert q.ready + q.temp == s.readyQueue;
    ShortBurstsReferenceIsFIFO(s.readyQueue);
  }
}

=== FILE: thread_units.dfy ===
/**
 * `assignThreads`: numbering the schedulable units. Cycle groups come first,
 * each one unit whose burst time is the sum of its members'; then every major
 * function that is in no group becomes a unit of its own, in the order the
 * function table is iterated. At most `MaxThreads` units are handed out.
 *
 * Groups arrive as the vectors `threadGroups` holds (each cycle set copied in
 * its iteration order); the function table's iteration order is the parameter
 * `order`. The text written to the two output files is not modelled.
 */
module ThreadUnits {
  import opened Seqs
  import opened CallGraph

  const MaxThreads: nat := 20

  /** One numbered line of the output: index, members and aggregate burst time. */
  datatype ThreadUnit = ThreadUnit(index: int, members: seq<string>, burstTime: int)

  /** `functions[name].burstTime`: a name with no entry reads as a default entry, burst time 0. */
  function BurstOf(functions: map<string, Function>, name: string): int {
    if name in functions then functions[name].burstTime else 0
  }

  /** Sum of the members' burst times. */
  function GroupBurst(functions: map<string, Function>, group: seq<string>): int
    decreases |group|
  {
    if |group| == 0 then 0 else BurstOf(functions, group[0]) + GroupBurst(functions, group[1..])
  }

  /** Every name appearing in one of the groups. */
  function GroupedNames(groups: seq<seq<string>>): set<string> {
    set k, x | 0 <= k < |groups| && x in groups[k] :: x
  }

  /** The functions the second loop numbers when the cap allows: major, declared and in no group, in table order. */
  function Candidates(functions: map<string, Function>, grouped: set<string>, order: seq<string>): (c: seq<string>)
    decreases |order|
  {
    if |order| == 0 then []
    else if order[0] in functions && order[0] !in grouped && functions[order[0]].isMajor then
      [order[0]] + Candidates(functions, grouped, order[1..])
    else Candidates(functions, grouped, order[1..])
  }

  function Min(a: int, b: int): int {
    if a <= b then a else b
  }

  /** The cycle-group loop, with `threadId` and `currentThreadCount` as in the source. */
  function AssignGroups(functions: map<string, Function>, groups: seq<seq<string>>, units: seq<ThreadUnit>,
                        threadId: int, count: int): (r: seq<ThreadUnit>)
    requires count == |units| <= MaxThreads && threadId == count + 1
    ensures IsPrefix(units, r)
    ensures |r| == |units| + Min(|groups|, MaxThreads - |units|)
    ensures forall k :: |units| <= k < |r| ==>
      r[k] == ThreadUnit(k + 1, groups[k - |units|], GroupBurst(functions, groups[k - |units|]))
    decreases |groups|
  {
    if |groups| == 0 || count >= MaxThreads then units
    else
      var u := ThreadUnit(threadId, groups[0], GroupBurst(functions, groups[0]));
      var r := AssignGroups(functions, groups[1..], units + [u], threadId + 1, count + 1);
      assert r[|units|] == (units + [u])[|units|];
      r
  }

  /** The loop over the function table that numbers the remaining major functions. */
  function AssignMajors(functions: map<string, Function>, grouped: set<string>, order: seq<string>,
                        units: seq<ThreadUnit>, threadId: int, count: int): (r: seq<ThreadUnit>)
    requires count == |units| <= MaxThreads && threadId == count + 1
    ensures IsPrefix(units, r)
    ensures var c := Candidates(functions, grouped, order);
      && |r| == |units| + Min(|c|, MaxThreads - |units|)
      && forall k :: |units| <= k < |r| ==>
           r[k] == ThreadUnit(k + 1, [c[k - |units|]], BurstOf(functions, c[k - |units|]))
    decreases |order|
  {
    if |order| == 0 || count >= MaxThreads then units
    else
      var name := order[0];
      if name !in grouped && name in functions && functions[name].isMajor then
        var u := ThreadUnit(threadId, [name], functions[name].burstTime);
        var r := AssignMajors(functions, grouped, order[1..], units + [u], threadId + 1, count + 1);
        assert r[|units|] == (units + [u])[|units|];
        r
      else
        AssignMajors(functions, grouped, order[1..], units, threadId, count)
  }

  /** Units `0 .. g-1` are the first `g` groups, in order, each with its members' summed burst time. */
  predicate GroupsFirst(functions: map<string, Function>, groups: seq<seq<string>>, r: seq<ThreadUnit>, g: nat)
    requires g <= |groups| && g <= |r|
  {
    forall i :: 0 <= i < g ==> r[i].members == groups[i] && r[i].burstTime == GroupBurst(functions, groups[i])
  }

  /** Units from `g` on are the names of `c`, in order, one each, with its own burst time. */
  predicate SinglesAfter(functions: map<string, Function>, c: seq<string>, r: seq<ThreadUnit>, g: nat)
    requires g <= |r| <= g + |c|
  {
    forall k :: g <= k < |r| ==> r[k].members == [c[k - g]] && r[k].burstTime == BurstOf(functions, c[k - g])
  }

  /**
   * `assignThreads`: units are numbered 1, 2, 3, ... with no gap; the first ones
   * are the cycle groups in order, each with the sum of its members' burst
   * times; after them come the major functions in no (numbered) group, one each,
   * in table order; and there are never more than `MaxThreads` of them.
   */
  function AssignThreads(functions: map<string, Function>, groups: seq<seq<string>>, order: seq<string>): (r: seq<ThreadUnit>)
    ensures |r| <= MaxThreads
    ensures forall i :: 0 <= i < |r| ==> r[i].index == i + 1
    ensures var g := Min(|groups|, MaxThreads);
      && 0 <= g <= |r| && g <= |groups|
      && GroupsFirst(functions, groups, r, g)
      && var c := Candidates(functions, GroupedNames(groups[..g]), order);
         && |r| == g + Min(|c|, MaxThreads - g)
         && SinglesAfter(functions, c, r, g)
  {
    var units := AssignGroups(functions, groups, [], 1, 0);
    var g := Min(|groups|, MaxThreads);
    var r := AssignMajors(functions, GroupedNames(groups[..g]), order, units, |units| + 1, |units|);
    assert |units| == g;
    assert forall i :: 0 <= i < |units| ==> units[i].index == i + 1;
    r
  }

  // ---------------------------------------------------------------------------
  // What the second loop picks

  /**
   * A name is picked by the second loop exactly when it is in the table order,
   * declared, major and in no group; with a duplicate-free order it is picked once.
   */
  lemma {:induction false} CandidatesExactly(functions: map<string, Function>, grouped: set<string>, order: seq<string>)
    ensures var c := Candidates(functions, grouped, order);
      forall x :: x in c <==> x in order && x in functions && x !in grouped && functions[x].isMajor
    ensures NoDups(order) ==> NoDups(Candidates(functions, grouped, order))
    decreases |order|
  {
    if |order| > 0 {
      CandidatesExactly(functions, grouped, order[1..]);
      var rest := Candidates(functions, grouped, order[1..]);
      assert forall x :: x in order <==> x == order[0] || x in order[1..];
      if NoDups(order) {
        assert NoDups(order[1..]);
        assert order[0] !in order[1..];
      }
    }
  }

  /**
   * The second loop numbers a name on its own exactly when it is one of the
   * candidates that still fit under the cap: the first `MaxThreads - g` of them,
   * `g` being the number of numbered groups. When all candidates fit, that is
   * every declared, major, ungrouped name of the table order.
   */
  lemma NumberedAlone(functions: map<string, Function>, groups: seq<seq<string>>, order: seq<string>, x: string)
    ensures var r := AssignThreads(functions, groups, order);
      var g := Min(|groups|, MaxThreads);
      var grouped := GroupedNames(groups[..g]);
      var c := Candidates(functions, grouped, order);
      && ((exists k :: g <= k < |r| && r[k].members == [x]) <==> x in c[..Min(|c|, MaxThreads - g)])
      && (|c| <= MaxThreads - g ==>
            ((exists k :: g <= k < |r| && r[k].members == [x]) <==>
               x in order && x in functions && x !in grouped && functions[x].isMajor))
  {
    var r := AssignThreads(functions, groups, order);
    var g := Min(|groups|, MaxThreads);
    var grouped := GroupedNames(groups[..g]);
    var c := Candidates(functions, grouped, order);
    assert |r| - g == Min(|c|, MaxThreads - g);
    SinglesAre(functions, r, g, c, x);
    CandidatesExactly(functions, grouped, order);
    if |c| <= MaxThreads - g {
      assert c[..|r| - g] == c;
    }
  }

  /** The units from `g` on number exactly the first `|r| - g` names of `c`. */
  lemma SinglesAre(functions: map<string, Function>, r: seq<ThreadUnit>, g: nat, c: seq<string>, x: string)
    requires g <= |r| <= g + |c|
    requires SinglesAfter(functions, c, r, g)
    ensures (exists k :: g <= k < |r| && r[k].members == [x]) <==> x in c[..|r| - g]
  {
    var m := |r| - g;
    if k :| g <= k < |r| && r[k].members == [x] {
      assert c[..m][k - g] == c[k - g] == x;
    }
    if x in c[..m] {
      var i :| 0 <= i < m && c[..m][i] == x;
      assert r[g + i].members == [c[i]];
    }
  }

  /** No function that is in a numbered group is also numbered on its own. */
  lemma GroupsAndSinglesDisjoint(functions: map<string, Function>, groups: seq<seq<string>>, order: seq<string>)
    ensures var r := AssignThreads(functions, groups, order);
      var g := Min(|groups|, MaxThreads);
      forall i, j :: 0 <= i < g <= j < |r| ==> Elems(r[j].members) !! Elems(r[i].members)
  {
    var r := AssignThreads(functions, groups, order);
    var g := Min(|groups|, MaxThreads);
    var grouped := GroupedNames(groups[..g]);
    CandidatesExactly(functions, grouped, order);
    GroupedNamesHas(groups[..g]);
    SinglesOutsideGroups(functions, r, g, Candidates(functions, grouped, order), groups, grouped);
  }

  lemma GroupedNamesHas(groups: seq<seq<string>>)
    ensures forall i, y :: 0 <= i < |groups| && y in groups[i] ==> y in GroupedNames(groups)
  {
  }

  lemma SinglesOutsideGroups(functions: map<string, Function>, r: seq<ThreadUnit>, g: nat, c: seq<string>,
                             groups: seq<seq<string>>, grouped: set<string>)
    requires g <= |groups| && g <= |r| <= g + |c|
    requires GroupsFirst(functions, groups, r, g) && SinglesAfter(functions, c, r, g)
    requires forall x :: x in c ==> x !in grouped
    requires forall i, y :: 0 <= i < g && y in groups[..g][i] ==> y in grouped
    ensures forall i, j :: 0 <= i < g <= j < |r| ==> Elems(r[j].members) !! Elems(r[i].members)
  {
    forall i, j | 0 <= i < g <= j < |r|
      ensures Elems(r[j].members) !! Elems(r[i].members)
    {
      assert c[j - g] in c;
      assert Elems(r[j].members) == {c[j - g]};
      assert groups[..g][i] == groups[i];
    }
  }

  /** With a duplicate-free table order, no function is numbered on its own twice. */
  lemma SinglesDistinct(functions: map<string, Function>, groups: seq<seq<string>>, order: seq<string>)
    requires NoDups(order)
    ensures var r := AssignThreads(functions, groups, order);
      var g := Min(|groups|, MaxThreads);
      forall i, j :: g <= i < j < |r| ==> r[i].members != r[j].members
  {
    var r := AssignThreads(functions, groups, order);
    var g := Min(|groups|, MaxThreads);
    var grouped := GroupedNames(groups[..g]);
    CandidatesExactly(functions, grouped, order);
    SinglesApart(functions, r, g, Candidates(functions, grouped, order));
  }

  lemma SinglesApart(functions: map<string, Function>, r: seq<ThreadUnit>, g: nat, c: seq<string>)
    requires NoDups(c) && g <= |r| <= g + |c|
    requires SinglesAfter(functions, c, r, g)
    ensures forall i, j :: g <= i < j < |r| ==> r[i].members != r[j].members
  {
    forall i, j | g <= i < j < |r|
      ensures r[i].members != r[j].members
    {
      assert r[i].members[0] == c[i - g] && r[j].members[0] == c[j - g];
    }
  }

  // ---------------------------------------------------------------------------
  // The order a cycle set is copied in does not matter

  lemma GroupBurstAppend(functions: map<string, Function>, a: seq<string>, b: seq<string>)
    ensures GroupBurst(functions, a + b) == GroupBurst(functions, a) + GroupBurst(functions, b)
    decreases |a|
  {
    if |a| > 0 {
      assert (a + b)[0] == a[0];
      assert (a + b)[1..] == a[1..] + b;
      GroupBurstAppend(functions, a[1..], b);
    } else {
      assert a + b == b;
    }
  }

  lemma GroupBurstRemove(functions: map<string, Function>, g: seq<string>, k: nat)
    requires k < |g|
    ensures GroupBurst(functions, g) == BurstOf(functions, g[k]) + GroupBurst(functions, g[..k] + g[k + 1..])
  {
    assert g == g[..k] + ([g[k]] + g[k + 1..]);
    GroupBurstAppend(functions, g[..k], [g[k]] + g[k + 1..]);
    GroupBurstAppend(functions, g[..k], g[k + 1..]);
    assert ([g[k]] + g[k + 1..])[1..] == g[k + 1..];
  }

  /** Where the first element of `a` sits in `b`, and that the rests are still permutations of each other. */
  lemma RemoveOne<T>(a: seq<T>, b: seq<T>) returns (k: nat)
    requires |a| > 0 && multiset(a) == multiset(b)
    ensures k < |b| && b[k] == a[0]
    ensures multiset(a[1..]) == multiset(b[..k] + b[k + 1..])
  {
    assert a[0] in multiset(b);
    k :| 0 <= k < |b| && b[k] == a[0];
    var b' := b[..k] + b[k + 1..];
    assert b == b[..k] + [b[k]] + b[k + 1..];
    assert multiset(b) == multiset(b[..k]) + multiset([b[k]]) + multiset(b[k + 1..]);
    assert a == [a[0]] + a[1..];
    assert multiset(b') == multiset(b[..k]) + multiset(b[k + 1..]);
    assert multiset(b) == multiset(b') + multiset{a[0]};
    assert multiset(a) == multiset{a[0]} + multiset(a[1..]);
    assert multiset(a[1..]) == multiset(a) - multiset{a[0]};
    assert multiset(b') == multiset(b) - multiset{a[0]};
  }

  /** A group's burst time does not depend on the order its members are listed in. */
  lemma {:induction false} GroupBurstPermutation(functions: map<string, Function>, a: seq<string>, b: seq<string>)
    requires multiset(a) == multiset(b)
    ensures GroupBurst(functions, a) == GroupBurst(functions, b)
    decreases |a|
  {
    if |a| > 0 {
      var k := RemoveOne(a, b);
      var b' := b[..k] + b[k + 1..];
      GroupBurstPermutation(functions, a[1..], b');
      GroupBurstRemove(functions, b, k);
    } else {
      assert |b| == |multiset(b)| == 0;
    }
  }
}
